=== FILE: README.md ===
# MobileNetV2 block-5 data capture, modelled in Dafny

The firmware is a TensorFlow Lite Micro build of MobileNetV2 whose
CONV_2D and DEPTHWISE_CONV_2D kernels have been instrumented. When inference
reaches inverted-residual block 5, they print that block's operands and
outputs as C header text. The text holds int8 arrays as hex bytes, int32
bias arrays as hex words, and the per-channel requantization parameters.
This project models that capture layer:

- `Conv.Eval`: the conv kernel's entry point. It works out whether the layer
  is a 1x1 expansion or a 1x1 projection. It keeps the process-wide
  `conv_bn_counter`, which counts projection layers that evaluated. It prints
  the pre-evaluation dump before the type gate, then applies the type gate and
  the kernel switch. It prints the post-evaluation dump only for the
  projection. The numeric convolution itself is not modelled.
- `DepthwiseConv.Eval`: the depthwise kernel's entry point. Its counter
  `dw_bn_counter` counts every call that evaluates. It has a one-off
  debug-window latch (`has_printed_dw_debug`), a pre-evaluation dump, a
  two-level type switch and a post-evaluation dump.
- `DataCapture.PrintTensor` and `DataCapture.PrintBias`: the two
  `print_tensor_as_h` overloads.
- `QuantDump.PrintQuantParams`: the requantization dump. The conv and
  depthwise files each hold an identical copy of it.

How the modules fit together:

- `Format` is the printf layer. `Hex` models `0x%0Nx` applied to a 32-bit
  two's-complement value, and `Decimal` models `%d`/`%ld`. Each comes with a
  parser and a round-trip proof.
- `Listing` models the two comma-separated list layouts:
  - `BreakBefore` opens a line before every k-th element. The tensor dumps
    use it.
  - `BreakAfter` closes a line after every k-th element except the last one.
    The requantization dump uses it.

  Each layout is proved equal to a reference definition built from fixed-size
  chunks. Each is also proved to read back as the element list, and its
  number of newlines is proved.
- `Tensors` models tensors as a type tag, a shape and a raw byte buffer. The
  int8 and int32 views are read from the bytes as the C code reads them
  through `GetTensorData<int8_t>` and `GetTensorData<int32_t>`.
- `Capture` describes what an Eval call prints as a sequence of sections:
  the banner, each named array, the requantization block, the debug window
  and the output heading. The kernels' section-level contracts state which
  arrays are printed, under which names and in which order. `Transcript`
  turns the sections into text, and `Conv.EvalText` and
  `DepthwiseConv.EvalText` state the full text of a call at counter 4: each
  name followed by the dump of the operand it belongs to.

## Model

| member | source | states |
|---|---|---|
| Format.HexRoundTrip | src/data_capture.h:26 | `0x%0Nx` text of any int32 value parses back to that value, whatever the minimum width |
| Format.Int8HexWidth | src/data_capture.h:26 | an int8 printed with `0x%02x` is 4 characters when non-negative; a negative one is sign-extended to 10 characters starting `0xffffff` |
| Format.Hex8Width | src/data_capture.h:38 | a bias word printed with `0x%08x` is always exactly 10 characters |
| Format.DecimalRoundTrip | src/tensorflow/lite/micro/kernels/conv.cc:34-35 | `%ld` text of any integer parses back to it, negatives included |
| Format.NumeralRoundTrip | src/data_capture.h:14 | a digit string in any base from 2 to 16 parses back to the number it was built from |
| Tensors.Int8At | src/data_capture.h:20 | an `int8_t` element is in [-128, 127] and its two's-complement byte is the stored byte |
| Tensors.Int32At | src/data_capture.h:34 | an `int32_t` element is in int32 range and its 32-bit pattern is the little-endian word of its four stored bytes; hence its low byte is the first stored byte and its sign comes from the fourth |
| Tensors.Offset4 | src/tensorflow/lite/micro/kernels/depthwise_conv.cc:104 | the NHWC offset of an in-range index lies inside the flat buffer |
| Tensors.FlatSize4 | src/data_capture.h:21 | the flat size of a rank-4 shape is the product of its four extents |
| Listing.ChunksFlatten | src/data_capture.h:24-27 | concatenating the fixed-size lines gives back the element list in order |
| Listing.ChunksCount | src/data_capture.h:24-27 | n elements at k per line make ceil(n/k) lines |
| Listing.BreakBeforeIsOpenedLines | src/data_capture.h:24-27 | the "newline before every k-th element" loop equals the reference layout: chunks of k, each line opened by a newline and indent |
| Listing.BreakAfterIsJoinedLines | src/tensorflow/lite/micro/kernels/conv.cc:39-42 | the "newline after every k-th element except the last" loop equals the reference layout: chunks of k joined by newline and indent |
| Listing.BreakBeforeLines | src/data_capture.h:24-27 | the tensor list layout contains exactly ceil(n/k) newlines |
| Listing.BreakAfterLines | src/tensorflow/lite/micro/kernels/conv.cc:39-42 | the requantization list layout has ceil(n/k)-1 newlines, and none when it is empty |
| Listing.BreakBeforeReadsBack | src/data_capture.h:24-27 | whatever the offset, the tensor list layout parses back to exactly the listed values |
| Listing.BreakAfterReadsBack | src/tensorflow/lite/micro/kernels/conv.cc:39-42 | whatever the offset, the requantization list layout parses back to exactly the listed values |
| DataCapture.ShapeListEndsInDigit | src/data_capture.h:13-16 | a non-empty shape list ends in a digit: the separator is printed between extents, never after the last |
| DataCapture.ShapeListReadsBack | src/data_capture.h:12-17 | the shape comment's comma-separated extents parse back to the shape, the empty shape included |
| DataCapture.PrintTensorReadsBack | src/data_capture.h:20-28 | the int8 array body lists all FlatSize elements of the int8 view, in buffer order |
| DataCapture.PrintTensorLines | src/data_capture.h:23-28 | the int8 array body is the 16-per-line layout and has ceil(FlatSize/16) newlines |
| DataCapture.PrintTensorElementWidths | src/data_capture.h:26 | each int8 entry is 4 characters, or 10 with an `ffffff` prefix for a negative value |
| DataCapture.PrintTensorFraming | src/data_capture.h:23-28 | the dump always ends in `\n};\n\n`; an empty tensor prints the shape comment, the declaration and an empty initializer |
| DataCapture.PrintBiasShape | src/data_capture.h:33 | the bias dump opens with the shape comment for the single extent FlatSize (which reads back by `DataCapture.ShapeListReadsBack`) and ends in `\n};\n\n` |
| DataCapture.PrintBiasReadsBack | src/data_capture.h:34-40 | the bias body lists all FlatSize int32 words, in order, each exactly 10 characters |
| DataCapture.PrintBiasLines | src/data_capture.h:36-40 | the bias body is the 8-per-line layout and has ceil(FlatSize/8) newlines |
| QuantDump.OffsetsReadBack | src/tensorflow/lite/micro/kernels/conv.cc:33-35 | in the printed dump, line 1 is the section heading and lines 2 and 3 read as declarations of `<layer>_input_offset` and `<layer>_output_offset` whose values are the input and output zero points |
| QuantDump.MultipliersReadBack | src/tensorflow/lite/micro/kernels/conv.cc:38-43 | the multiplier array lists exactly the first `num_channels` multipliers, in order |
| QuantDump.MultiplierWidths | src/tensorflow/lite/micro/kernels/conv.cc:40 | every multiplier entry is exactly 10 characters |
| QuantDump.MultiplierLines | src/tensorflow/lite/micro/kernels/conv.cc:39-42 | multipliers are 8 per line with no break after the last, so there are ceil(n/8)-1 newlines |
| QuantDump.ShiftsReadBack | src/tensorflow/lite/micro/kernels/conv.cc:46-51 | the shift array lists exactly the first `num_channels` shifts, in order |
| QuantDump.ShiftLines | src/tensorflow/lite/micro/kernels/conv.cc:47-50 | shifts are 16 per line with no break after the last, so there are ceil(n/16)-1 newlines |
| Capture.LayerCaptureOrder | src/tensorflow/lite/micro/kernels/conv.cc:89-97 | names and order only: a layer dump prints input, filter, the bias only when present, then the requantization block, and no debug window (the operands behind each name are stated by `Capture.LayerCaptureText`) |
| Capture.LayerCaptureText | src/tensorflow/lite/micro/kernels/conv.cc:90-96 | the text of a layer dump is the banner, then the input tensor's dump under `<prefix>_ifmap`, the filter's under `<prefix>_filter`, the bias's under `<prefix>_bias` only when there is one, and the invocation's requantization dump for the channel count |
| Capture.LayerCaptureChannels | src/tensorflow/lite/micro/kernels/conv.cc:96 | a layer dump prints exactly one requantization block, for the requested channel count |
| Capture.LayerCaptureInputOnce | src/tensorflow/lite/micro/kernels/conv.cc:93 | a layer dump prints its input feature map exactly once |
| Capture.SpacedDecimalsReadBack | src/tensorflow/lite/micro/kernels/depthwise_conv.cc:102-113 | the debug dump's ` %d,` lists parse back to the printed values |
| Conv.ShapeClasses | src/tensorflow/lite/micro/kernels/conv.cc:84-86 | expansion and projection exclude each other and both need a 1x1 filter; a 1x1 layer is one of them unless depths are equal |
| Conv.Dispatch | src/tensorflow/lite/micro/kernels/conv.cc:108-166 | evaluation succeeds exactly for the five accepted (input, filter, output) type triples; an accepted call runs the int16 kernel iff the input is int16 and the int8 per-channel kernel iff input and filter are int8; an input/output type mismatch is reported as such, a matching pair outside the hybrid gate as a hybrid error, and an unknown matching type as an input-type error; the inner "weight type" error can never be reached |
| Conv.Eval | src/tensorflow/lite/micro/kernels/conv.cc:81-179 | Ok iff the types are accepted; an error carries the reason the type switch reports; the counter advances only on an accepted projection; an error leaves the state unchanged; something is printed iff the counter is 4 and the layer is an expansion or projection; the final output is printed once exactly when an accepted projection runs at counter 4 |
| Conv.PreDumpContents | src/tensorflow/lite/micro/kernels/conv.cc:89-114 | names and order only (the text is stated by `Conv.EvalText`): at counter 4 the arrays come in the order ifmap, filter, bias if present, requantization, then final output (accepted projection only); the requantization block covers output-depth channels; a rejected call still prints its dump |
| Conv.EvalText | src/tensorflow/lite/micro/kernels/conv.cc:89-172 | the text a call at counter 4 prints, when the buffers cover their shapes: the banner, the input under `_ifmap`, the filter under `_filter`, the bias under `_bias` when present, the requantization dump for output-depth channels, and the output tensor under `bn5_final_output` exactly for an accepted projection |
| Conv.EvalPrintable | src/tensorflow/lite/micro/kernels/conv.cc:93-105 | when the operand buffers cover their shapes, every printed section can be rendered |
| Conv.RunCounter | src/tensorflow/lite/micro/kernels/conv.cc:174-176 | after any run of calls the counter has advanced by the number of accepted projections |
| Conv.RunSilentAfterCapture | src/tensorflow/lite/micro/kernels/conv.cc:89-98 | once the counter has passed 4 nothing is ever printed again |
| Conv.RunOutputOnce | src/tensorflow/lite/micro/kernels/conv.cc:169-172 | the final output array is printed at most once per process, and never once the counter is past 4 |
| Conv.CaptureEnds | src/tensorflow/lite/micro/kernels/conv.cc:169-176 | the accepted projection at counter 4 moves the counter to 5, and no later call prints |
| Conv.RunSilentBeforeCapture | src/tensorflow/lite/micro/kernels/conv.cc:89-98 | while the counter plus the projections still to come stay below 4, nothing is printed |
| Conv.FromStart | src/tensorflow/lite/micro/kernels/conv.cc:81 | from the zero-initialised counter: the counter equals the accepted projections, fewer than four of them print nothing, and the final output appears at most once |
| Conv.ExpansionDumpRepeats | src/tensorflow/lite/micro/kernels/conv.cc:89-97 | the expansion dump is not latched: two expansion calls at counter 4 print the expansion input twice |
| Conv.ExpansionScenario | src/tensorflow/lite/micro/kernels/conv.cc:85-89 | a concrete 16-to-32 channel int8 1x1 expansion at counter 4 evaluates, prints its dump but no output, and leaves the counter at 4; at counter 3 it prints nothing |
| DepthwiseConv.Dispatch | src/tensorflow/lite/micro/kernels/depthwise_conv.cc:119-155 | evaluation succeeds iff the input is float32 (any filter) or int8 with an int8 or int4 filter; an accepted call runs the float kernel iff the input is float32 and the int8 per-channel kernel iff input and filter are int8; any other input type, int16 included, is an input-type error; an int8 input with another filter is a filter-type error |
| DepthwiseConv.WindowValues | src/tensorflow/lite/micro/kernels/depthwise_conv.cc:102-106 | the window is nine values; entry 3y+x is the int8 input element at (0, y, x, 0) |
| DepthwiseConv.Eval | src/tensorflow/lite/micro/kernels/depthwise_conv.cc:82-166 | Ok iff the types are accepted; an error carries the reason the type switch reports; the counter advances on every accepted call whatever its shape; the latch is set by any call at counter 4, accepted or not; something is printed iff the counter is 4; the debug window is printed once exactly when the counter is 4 and the latch was clear; the output array is printed exactly when an accepted call runs at counter 4 |
| DepthwiseConv.PreDumpContents | src/tensorflow/lite/micro/kernels/depthwise_conv.cc:85-92 | names and order only (the text is stated by `DepthwiseConv.EvalText`): at counter 4 the arrays come in the order ifmap, filter, bias if present, requantization, then output (accepted calls only); the requantization block covers output extent 3 channels |
| DepthwiseConv.EvalText | src/tensorflow/lite/micro/kernels/depthwise_conv.cc:85-161 | the text a call at counter 4 prints, when the buffers cover their shapes: the banner, the input under `bn5_dw_ifmap`, the filter under `bn5_dw_filter`, the bias under `bn5_dw_bias` when present, the requantization dump for output extent 3 channels, the debug window text while the latch is clear, and the output tensor under `bn5_dw_output_pr_ifmap` exactly for an accepted call |
| DepthwiseConv.DebugDumpContents | src/tensorflow/lite/micro/kernels/depthwise_conv.cc:94-116 | the first call at counter 4 prints the debug window right after the requantization block: the nine input values at (0, y, x, 0), rows outer, then the first nine filter bytes as int8 |
| DepthwiseConv.RunCounter | src/tensorflow/lite/micro/kernels/depthwise_conv.cc:163 | after any run the counter has advanced by the number of calls whose types were accepted |
| DepthwiseConv.RunLatchStays | src/tensorflow/lite/micro/kernels/depthwise_conv.cc:83 | the debug latch is never cleared |
| DepthwiseConv.RunDebugOnce | src/tensorflow/lite/micro/kernels/depthwise_conv.cc:94-116 | the debug window is printed at most once per process, and never once the latch is set |
| DepthwiseConv.RunSilentAfterCapture | src/tensorflow/lite/micro/kernels/depthwise_conv.cc:85 | once the counter has passed 4 nothing is printed again |
| DepthwiseConv.RunSilentBeforeCapture | src/tensorflow/lite/micro/kernels/depthwise_conv.cc:85 | while the counter plus the accepted calls still to come stay below 4, nothing is printed |
| DepthwiseConv.FromStart | src/tensorflow/lite/micro/kernels/depthwise_conv.cc:82-83 | from the zero counter and clear latch: the counter equals the accepted calls, fewer than four of them print nothing, and the debug window and the output each appear at most once |
| DepthwiseConv.RunOutputOnce | src/tensorflow/lite/micro/kernels/depthwise_conv.cc:157-163 | the depthwise output array is printed at most once per process |
| DepthwiseConv.FailedCallRepeatsDump | src/tensorflow/lite/micro/kernels/depthwise_conv.cc:85-155 | a rejected call at counter 4 still prints its operands, sets the latch and keeps the counter at 4, so the next call dumps again without the debug window |
| DepthwiseConv.Int16Refused | src/tensorflow/lite/micro/kernels/depthwise_conv.cc:151-154 | an int16 input is rejected whatever the filter |

Behaviour of the code worth knowing:

- Expansion layers never get a post-evaluation dump. The conv post-dump is
  guarded by `is_projection` only. `Conv.ExpansionScenario` shows this.
- The conv type gate also accepts int16 input with an int16 filter, not only
  with an int8 filter. It is `input == filter || int16/int8 || int8/int4`.
- Only the depthwise debug window is latched. The pre-evaluation dumps repeat
  on every call while a counter stays at 4. `Conv.ExpansionDumpRepeats` and
  `DepthwiseConv.FailedCallRepeatsDump` show this.
- The depthwise debug latch is set before the type switch. A rejected call
  at counter 4 therefore uses up the one-off window.

## Left out

- The numeric kernels (float, int16, int8 per-channel, int4 convolution and depthwise convolution), `Init`, `Prepare` and `Register_CONV_2D`. `Invocation.output` stands for the output tensor as the kernel leaves it.
- The int4 unpacking in the int8/int4 conv path. Its code is elided in the source, so `Conv.Dispatch` only selects it.
- `MicroPrintf` error messages. The error reasons are kept as `EvalError` values; their text is not modelled.
- `TF_LITE_ENSURE_*` reporting through the context. It is modelled as returning an error without further effect.
- Stdout itself: buffering, interleaving with other output, and failures of `printf`.
- Concurrency. The static counters and latch are modelled as a state value threaded through calls; concurrent calls are not modelled.
- Tensors.Int32At: assumes a little-endian target, so a bias word is decoded from its four bytes least significant first; a big-endian target is not modelled.
- QuantDump.OffsetsReadBack: requires the layer name to be a C identifier, so that it holds no space or newline. Every call site passes `bn5_ex`, `bn5_pr` or `bn5_dw`.
- Tensors.Offset4: assumes row-major NHWC layout; the `RuntimeShape` `Offset` helper is not part of this model.
- Format.Decimal: `%ld` and `%lx` are applied to `int32_t` values. The model assumes `long` is 32 bits, so a multiplier prints as its 32-bit two's-complement pattern. A 64-bit `long` host is not modelled.
- Conv.Eval: `conv_bn_counter` is a C `int`. Its overflow after 2^31 accepted projections is not modelled, since the counter is a `nat`.
- DataCapture.PrintTensor: requires the byte buffer to cover FlatSize elements. For an int4 filter the packed buffer holds about half that many bytes, so the source's filter dump reads past its end. The model covers only the in-bounds case.
- DepthwiseConv.Eval: at counter 4 requires an output of rank at least 4, because the source reads output `Dims(3)` for the requantization channel count without checking the rank.
- DepthwiseConv.Eval: `dw_bn_counter` is a C `int`. Its overflow after 2^31 accepted calls is not modelled, since the counter is a `nat`.
- DepthwiseConv.Eval: requires the debug window's reads to be in bounds (rank-4 input at least 1x3x3x1, filter of at least 9 bytes) at the first call at counter 4. The source does not check this, and an out-of-bounds read is not modelled.
- Conv.EvalText: states the text only when every operand buffer covers its shape, as `DataCapture.PrintTensor` requires; otherwise only the section-level contracts apply.
- DepthwiseConv.EvalText: states the text only when every operand buffer covers its shape, as `DataCapture.PrintTensor` requires; otherwise only the section-level contracts apply.
- Conv.Eval: requires input and output of rank at least 4 and a filter of rank at least 3, because the source reads `Dims(3)`, `Dims(1)` and `Dims(2)` unconditionally. Negative extents cannot occur, since dimensions are `nat`.

=== FILE: capture.dfy ===
/**
 * What one kernel invocation hands the capture block, and the sections of
 * text the block prints, in order. A section is kept as data (which tensor,
 * under which name) so that the kernels' contracts can speak about what is
 * printed and in which order; `Transcript` turns sections into the text.
 */
module Capture {
  import opened Wrappers
  import opened Format
  import opened Listing
  import opened Tensors
  import opened DataCapture
  import opened QuantDump

  /**
   * The operands of one Eval call. `output` stands for the output tensor as
   * the numeric kernel leaves it (the kernel itself is not modelled).
   */
  datatype Invocation = Invocation(
    input: Tensor,
    filter: Tensor,
    bias: Option<Tensor>,
    output: Tensor,
    data: QuantParams)

  datatype Section =
    | LayerBanner(banner: string)
    | OutputHeading(heading: string)
    | Int8Array(name: string, tensor: Tensor)
    | BiasArray(biasName: string, bias: Tensor)
    | QuantArrays(layer: string, params: QuantParams, channels: nat)
    | DebugWindow(window: seq<int>, filterHead: seq<int>)

  /**
   * The pre-evaluation dump of one layer: banner, input feature map, filter,
   * bias when the node has one, then the requantization parameters for
   * `channels` output channels.
   */
  function LayerCapture(prefix: string, kind: string, inv: Invocation, channels: nat): seq<Section>
  {
    [LayerBanner("BN 5: " + kind + " LAYER DATA"),
     Int8Array(prefix + "_ifmap", inv.input),
     Int8Array(prefix + "_filter", inv.filter)]
    + (if inv.bias.Some? then [BiasArray(prefix + "_bias", inv.bias.value)] else [])
    + [QuantArrays(prefix, inv.data, channels)]
  }

  /** The names under which arrays are printed, in printing order. */
  function ArrayNames(secs: seq<Section>): seq<string>
  {
    if |secs| == 0 then []
    else
      (match secs[0]
       case Int8Array(name, _) => [name]
       case BiasArray(name, _) => [name]
       case QuantArrays(layer, _, _) => [layer]
       case _ => [])
      + ArrayNames(secs[1..])
  }

  /** How many sections print the array called `name`. */
  function CountArray(secs: seq<Section>, name: string): nat
  {
    if |secs| == 0 then 0
    else (if secs[0].Int8Array? && secs[0].name == name then 1 else 0) + CountArray(secs[1..], name)
  }

  function CountDebugWindows(secs: seq<Section>): nat
  {
    if |secs| == 0 then 0 else (if secs[0].DebugWindow? then 1 else 0) + CountDebugWindows(secs[1..])
  }

  lemma {:induction false} ArrayNamesAppend(a: seq<Section>, b: seq<Section>)
    ensures ArrayNames(a + b) == ArrayNames(a) + ArrayNames(b)
    decreases |a|
  {
    if |a| == 0 {
      assert a + b == b;
    } else {
      assert (a + b)[1..] == a[1..] + b;
      ArrayNamesAppend(a[1..], b);
      assert [a[0]][1..] == [];
      assert ArrayNames(a) == ArrayNames([a[0]]) + ArrayNames(a[1..]);
      assert ArrayNames(a + b) == ArrayNames([a[0]]) + ArrayNames(a[1..] + b);
      Associate(ArrayNames([a[0]]), ArrayNames(a[1..]), ArrayNames(b));
    }
  }

  lemma {:induction false} CountArrayAppend(a: seq<Section>, b: seq<Section>, name: string)
    ensures CountArray(a + b, name) == CountArray(a, name) + CountArray(b, name)
    decreases |a|
  {
    if |a| == 0 {
      assert a + b == b;
    } else {
      assert (a + b)[1..] == a[1..] + b;
      CountArrayAppend(a[1..], b, name);
    }
  }

  lemma {:induction false} CountArrayAbsent(secs: seq<Section>, name: string)
    requires forall i :: 0 <= i < |secs| ==> !(secs[i].Int8Array? && secs[i].name == name)
    ensures CountArray(secs, name) == 0
    decreases |secs|
  {
    if |secs| > 0 {
      CountArrayAbsent(secs[1..], name);
    }
  }

  lemma {:induction false} CountDebugWindowsAppend(a: seq<Section>, b: seq<Section>)
    ensures CountDebugWindows(a + b) == CountDebugWindows(a) + CountDebugWindows(b)
    decreases |a|
  {
    if |a| == 0 {
      assert a + b == b;
    } else {
      assert (a + b)[1..] == a[1..] + b;
      CountDebugWindowsAppend(a[1..], b);
    }
  }

  /**
   * A layer dump prints the input, the filter, the bias only when present,
   * and the requantization parameters, in that order.
   */
  lemma LayerCaptureOrder(prefix: string, kind: string, inv: Invocation, channels: nat)
    ensures ArrayNames(LayerCapture(prefix, kind, inv, channels))
         == [prefix + "_ifmap", prefix + "_filter"]
          + (if inv.bias.Some? then [prefix + "_bias"] else [])
          + [prefix]
    ensures CountDebugWindows(LayerCapture(prefix, kind, inv, channels)) == 0
  {
    var banner := LayerBanner("BN 5: " + kind + " LAYER DATA");
    var ifmap := Int8Array(prefix + "_ifmap", inv.input);
    var filter := Int8Array(prefix + "_filter", inv.filter);
    var bias := if inv.bias.Some? then [BiasArray(prefix + "_bias", inv.bias.value)] else [];
    var quant := QuantArrays(prefix, inv.data, channels);
    var s1 := [banner] + [ifmap];
    var s2 := s1 + [filter];
    var s3 := s2 + bias;
    assert LayerCapture(prefix, kind, inv, channels) == s3 + [quant];
    var biasNames := if inv.bias.Some? then [prefix + "_bias"] else [];
    SingleSection(banner);
    SingleSection(ifmap);
    ArrayNamesAppend([banner], [ifmap]);
    assert ArrayNames(s1) == [prefix + "_ifmap"];
    SingleSection(filter);
    ArrayNamesAppend(s1, [filter]);
    assert ArrayNames(s2) == [prefix + "_ifmap", prefix + "_filter"];
    if inv.bias.Some? {
      SingleSection(bias[0]);
    }
    assert ArrayNames(bias) == biasNames;
    ArrayNamesAppend(s2, bias);
    SingleSection(quant);
    ArrayNamesAppend(s3, [quant]);
    LayerCaptureNoDebug(prefix, kind, inv, channels);
  }

  lemma LayerCaptureNoDebug(prefix: string, kind: string, inv: Invocation, channels: nat)
    ensures CountDebugWindows(LayerCapture(prefix, kind, inv, channels)) == 0
  {
    var secs := LayerCapture(prefix, kind, inv, channels);
    forall i | 0 <= i < |secs| ensures !secs[i].DebugWindow? {
    }
    NoDebugWindows(secs);
  }

  lemma {:induction false} NoDebugWindows(secs: seq<Section>)
    requires forall i :: 0 <= i < |secs| ==> !secs[i].DebugWindow?
    ensures CountDebugWindows(secs) == 0
    decreases |secs|
  {
    if |secs| > 0 {
      NoDebugWindows(secs[1..]);
    }
  }

  /** A layer dump prints its input feature map exactly once. */
  lemma LayerCaptureInputOnce(prefix: string, kind: string, inv: Invocation, channels: nat)
    ensures CountArray(LayerCapture(prefix, kind, inv, channels), prefix + "_ifmap") == 1
  {
    var secs := LayerCapture(prefix, kind, inv, channels);
    var name := prefix + "_ifmap";
    var rest := secs[2..];
    forall i | 0 <= i < |rest| ensures !(rest[i].Int8Array? && rest[i].name == name) {
      if rest[i].Int8Array? {
        assert |rest[i].name| != |name|;
      }
    }
    CountArrayAbsent(rest, name);
    assert secs[1..][1..] == rest;
  }

  lemma SingleSection(sec: Section)
    ensures ArrayNames([sec]) == match sec
      case Int8Array(name, _) => [name]
      case BiasArray(name, _) => [name]
      case QuantArrays(layer, _, _) => [layer]
      case _ => []
    ensures CountDebugWindows([sec]) == if sec.DebugWindow? then 1 else 0
  {
    assert [sec][1..] == [];
  }

  /** The channel counts the requantization dumps of `secs` are printed for. */
  function QuantChannels(secs: seq<Section>): seq<nat>
  {
    if |secs| == 0 then []
    else (if secs[0].QuantArrays? then [secs[0].channels] else []) + QuantChannels(secs[1..])
  }

  lemma {:induction false} QuantChannelsAppend(a: seq<Section>, b: seq<Section>)
    ensures QuantChannels(a + b) == QuantChannels(a) + QuantChannels(b)
    decreases |a|
  {
    if |a| == 0 {
      assert a + b == b;
    } else {
      assert (a + b)[1..] == a[1..] + b;
      QuantChannelsAppend(a[1..], b);
      Associate((if a[0].QuantArrays? then [a[0].channels] else []), QuantChannels(a[1..]), QuantChannels(b));
    }
  }

  lemma LayerCaptureChannels(prefix: string, kind: string, inv: Invocation, channels: nat)
    ensures QuantChannels(LayerCapture(prefix, kind, inv, channels)) == [channels]
  {
    var secs := LayerCapture(prefix, kind, inv, channels);
    var k := |secs| - 1;
    assert secs == secs[..k] + [secs[k]];
    QuantChannelsAppend(secs[..k], [secs[k]]);
    forall i | 0 <= i < k ensures !secs[..k][i].QuantArrays? {
    }
    NoQuant(secs[..k]);
    assert [secs[k]][1..] == [];
  }

  lemma {:induction false} NoQuant(secs: seq<Section>)
    requires forall i :: 0 <= i < |secs| ==> !secs[i].QuantArrays?
    ensures QuantChannels(secs) == []
    decreases |secs|
  {
    if |secs| > 0 {
      NoQuant(secs[1..]);
    }
  }

  // ---------------------------------------------------------------------------
  // Text
  // ---------------------------------------------------------------------------

  /** A line of seventy '=' after the comment marker. */
  const Rule: string := "// ======================================================================"

  /** ` <v>,` for each value: the debug dump's `printf(" %d,", ...)` loop. */
  function SpacedDecimals(vs: seq<int>): string
  {
    if |vs| == 0 then "" else " " + Decimal(vs[0]) + "," + SpacedDecimals(vs[1..])
  }

  /** The three `printf`s that open a layer dump. */
  function BannerText(title: string): string
  {
    "\n" + Rule + "\n// " + title + "\n" + Rule + "\n"
  }

  /** The line that announces an output array. */
  function HeadingText(title: string): string
  {
    "\n// --- " + title + " ---\n"
  }

  /** The depthwise debug dump: the input window, then the filter head. */
  function DebugText(window: seq<int>, head: seq<int>): string
  {
    DebugHeader
    + "// 1. DW Input Data (Top-Left 3x3 Window, Channel 0):\n" + DebugArray("debug_dw_window_ch0", window)
    + "// 2. DW Filter Data (First Filter, Channel 0, 3x3):\n" + DebugArray("debug_dw_filter_ch0", head)
  }

  /** The separator line that opens the debug dump. */
  const DebugHeader: string := "\n\n--- DEBUG DUMP: DEPTHWISE STAGE, TOP-LEFT 3x3 WINDOW, CHANNEL 0 ---\n\n"

  /** One `const int8_t` array of the debug dump, values spaced and comma-terminated. */
  function DebugArray(name: string, vs: seq<int>): string
  {
    "const int8_t " + name + "[] = {" + SpacedDecimals(vs) + " };\n\n"
  }

  predicate Renderable(sec: Section)
  {
    match sec
    case Int8Array(_, t) => Readable8(t)
    case BiasArray(_, t) => Readable32(t)
    case QuantArrays(_, q, n) => Covers(q, n)
    case _ => true
  }

  predicate AllRenderable(secs: seq<Section>)
  {
    forall i :: 0 <= i < |secs| ==> Renderable(secs[i])
  }

  function RenderSection(sec: Section): string
    requires Renderable(sec)
  {
    match sec
    case LayerBanner(title) => BannerText(title)
    case OutputHeading(title) => HeadingText(title)
    case Int8Array(name, t) => PrintTensor(name, t)
    case BiasArray(name, t) => PrintBias(name, t)
    case QuantArrays(layer, q, n) => PrintQuantParams(layer, q, n)
    case DebugWindow(window, head) => DebugText(window, head)
  }

  /** The text of each section, in order. */
  function Texts(secs: seq<Section>): (ts: seq<string>)
    requires AllRenderable(secs)
    ensures |ts| == |secs|
  {
    seq(|secs|, i requires 0 <= i < |secs| => RenderSection(secs[i]))
  }

  /** Everything the sections print, in order. */
  function Transcript(secs: seq<Section>): string
    requires AllRenderable(secs)
  {
    Flatten(Texts(secs))
  }

  lemma TextsAppend(a: seq<Section>, b: seq<Section>)
    requires AllRenderable(a) && AllRenderable(b)
    ensures AllRenderable(a + b)
    ensures Texts(a + b) == Texts(a) + Texts(b)
  {
    AllRenderableAppend(a, b);
  }

  lemma AllRenderableAppend(a: seq<Section>, b: seq<Section>)
    requires AllRenderable(a) && AllRenderable(b)
    ensures AllRenderable(a + b)
  {
  }

  /** Printing two runs of sections one after the other prints both texts. */
  lemma TranscriptAppend(a: seq<Section>, b: seq<Section>)
    requires AllRenderable(a) && AllRenderable(b)
    ensures AllRenderable(a + b)
    ensures Transcript(a + b) == Transcript(a) + Transcript(b)
  {
    TextsAppend(a, b);
    FlattenAppend(Texts(a), Texts(b));
  }

  lemma TranscriptEmpty()
    ensures AllRenderable([]) && Transcript([]) == ""
  {
    assert Texts([]) == [];
  }

  lemma TranscriptSingle(sec: Section)
    requires Renderable(sec)
    ensures AllRenderable([sec])
    ensures Transcript([sec]) == RenderSection(sec)
  {
    var ts := Texts([sec]);
    assert ts == [RenderSection(sec)];
    assert ts[1..] == [];
    assert Flatten(ts) == ts[0] + Flatten(ts[1..]);
  }

  /** Operand buffers that cover everything a layer dump reads. */
  predicate LayerReadable(inv: Invocation, channels: nat)
  {
    && Readable8(inv.input) && Readable8(inv.filter)
    && (inv.bias.Some? ==> Readable32(inv.bias.value))
    && Covers(inv.data, channels)
  }

  /** The bias array's text, or nothing for a node without bias. */
  function BiasText(name: string, bias: Option<Tensor>): string
    requires bias.Some? ==> Readable32(bias.value)
  {
    if bias.Some? then PrintBias(name, bias.value) else ""
  }

  /** A layer dump followed by further sections prints the layer's text, then theirs. */
  lemma LayerCaptureThen(prefix: string, kind: string, inv: Invocation, channels: nat, post: seq<Section>, postText: string)
    requires LayerReadable(inv, channels) && AllRenderable(post) && Transcript(post) == postText
    ensures AllRenderable(LayerCapture(prefix, kind, inv, channels) + post)
    ensures Transcript(LayerCapture(prefix, kind, inv, channels) + post)
         == BannerText("BN 5: " + kind + " LAYER DATA")
          + PrintTensor(prefix + "_ifmap", inv.input)
          + PrintTensor(prefix + "_filter", inv.filter)
          + BiasText(prefix + "_bias", inv.bias)
          + PrintQuantParams(prefix, inv.data, channels)
          + postText
  {
    LayerCaptureText(prefix, kind, inv, channels);
    TranscriptAppend(LayerCapture(prefix, kind, inv, channels), post);
  }

  /** A layer dump followed by two further runs of sections prints the three texts in order. */
  lemma LayerCaptureThenTwo(prefix: string, kind: string, inv: Invocation, channels: nat,
                            x: seq<Section>, xt: string, y: seq<Section>, yt: string)
    requires LayerReadable(inv, channels) && AllRenderable(x) && AllRenderable(y)
    requires Transcript(x) == xt && Transcript(y) == yt
    ensures AllRenderable(LayerCapture(prefix, kind, inv, channels) + x + y)
    ensures Transcript(LayerCapture(prefix, kind, inv, channels) + x + y)
         == BannerText("BN 5: " + kind + " LAYER DATA")
          + PrintTensor(prefix + "_ifmap", inv.input)
          + PrintTensor(prefix + "_filter", inv.filter)
          + BiasText(prefix + "_bias", inv.bias)
          + PrintQuantParams(prefix, inv.data, channels)
          + xt + yt
  {
    var layer := LayerCapture(prefix, kind, inv, channels);
    TranscriptAppend(x, y);
    LayerCaptureThen(prefix, kind, inv, channels, x + y, xt + yt);
    Associate(layer, x, y);
    var head := BannerText("BN 5: " + kind + " LAYER DATA")
      + PrintTensor(prefix + "_ifmap", inv.input)
      + PrintTensor(prefix + "_filter", inv.filter)
      + BiasText(prefix + "_bias", inv.bias)
      + PrintQuantParams(prefix, inv.data, channels);
    Associate(head, xt, yt);
  }

  /**
   * The text of a layer dump: the banner, the input under `<prefix>_ifmap`,
   * the filter under `<prefix>_filter`, the bias under `<prefix>_bias` when
   * there is one, and the requantization parameters of the invocation.
   */
  lemma LayerCaptureText(prefix: string, kind: string, inv: Invocation, channels: nat)
    requires LayerReadable(inv, channels)
    ensures AllRenderable(LayerCapture(prefix, kind, inv, channels))
    ensures Transcript(LayerCapture(prefix, kind, inv, channels))
         == BannerText("BN 5: " + kind + " LAYER DATA")
          + PrintTensor(prefix + "_ifmap", inv.input)
          + PrintTensor(prefix + "_filter", inv.filter)
          + BiasText(prefix + "_bias", inv.bias)
          + PrintQuantParams(prefix, inv.data, channels)
  {
    var bias := if inv.bias.Some? then [BiasArray(prefix + "_bias", inv.bias.value)] else [];
    if inv.bias.Some? {
      TranscriptSingle(bias[0]);
    } else {
      assert Texts(bias) == [];
    }
    assert Transcript(bias) == BiasText(prefix + "_bias", inv.bias);
    var a := LayerBanner("BN 5: " + kind + " LAYER DATA");
    var b := Int8Array(prefix + "_ifmap", inv.input);
    var c := Int8Array(prefix + "_filter", inv.filter);
    var d := QuantArrays(prefix, inv.data, channels);
    assert LayerCapture(prefix, kind, inv, channels) == [a, b, c] + bias + [d];
    assert RenderSection(a) == BannerText("BN 5: " + kind + " LAYER DATA");
    assert RenderSection(b) == PrintTensor(prefix + "_ifmap", inv.input);
    assert RenderSection(c) == PrintTensor(prefix + "_filter", inv.filter);
    assert RenderSection(d) == PrintQuantParams(prefix, inv.data, channels);
    TranscriptParts(a, b, c, bias, d);
  }

  /** What three sections, a run of sections and a last section print. */
  lemma TranscriptParts(a: Section, b: Section, c: Section, m: seq<Section>, d: Section)
    requires Renderable(a) && Renderable(b) && Renderable(c) && Renderable(d) && AllRenderable(m)
    ensures AllRenderable([a, b, c] + m + [d])
    ensures Transcript([a, b, c] + m + [d])
         == RenderSection(a) + RenderSection(b) + RenderSection(c) + Transcript(m) + RenderSection(d)
  {
    var secs := [a, b, c] + m + [d];
    assert AllRenderable(secs) by {
      AllRenderableAppend([a, b, c], m);
      AllRenderableAppend([a, b, c] + m, [d]);
    }
    var abc := [a, b, c];
    TextsAppend(abc, m);
    TextsAppend(abc + m, [d]);
    assert Texts(abc) == [RenderSection(a), RenderSection(b), RenderSection(c)];
    assert Texts([d]) == [RenderSection(d)];
    FlattenParts(RenderSection(a), RenderSection(b), RenderSection(c), Texts(m), RenderSection(d));
  }

  /** ` <tok>,` is consumed as one element. */
  lemma SpacedCell(tok: string, v: int, rest: string)
    requires IsToken(tok) && ParseDecimal(tok) == Some(v)
    ensures ParseCells(" " + tok + "," + rest, ParseDecimal)
         == match ParseCells(rest, ParseDecimal)
            case None => None
            case Some(vs) => Some([v] + vs)
  {
    Associate(" ", tok, ",");
    Associate(" ", tok + ",", rest);
    ParseCellsSkip(" ", tok + "," + rest, ParseDecimal);
    ParseCellsComma(tok, v, rest, ParseDecimal);
  }

  /** The debug dump's value lists read back as the values, in order. */
  lemma {:induction false} SpacedDecimalsReadBack(vs: seq<int>)
    ensures ParseCells(SpacedDecimals(vs), ParseDecimal) == Some(vs)
    decreases |vs|
  {
    if |vs| > 0 {
      SpacedDecimalsReadBack(vs[1..]);
      SpacedDecimalsStep(vs);
    }
  }

  lemma SpacedDecimalsStep(vs: seq<int>)
    requires |vs| > 0
    requires ParseCells(SpacedDecimals(vs[1..]), ParseDecimal) == Some(vs[1..])
    ensures ParseCells(SpacedDecimals(vs), ParseDecimal) == Some(vs)
  {
    HeadTail(vs);
    var tok := Decimal(vs[0]);
    var rest := SpacedDecimals(vs[1..]);
    DecimalChars(vs[0]);
    NumberTextIsToken(tok);
    DecimalRoundTrip(vs[0]);
    assert SpacedDecimals(vs) == " " + tok + "," + rest;
    SpacedCell(tok, vs[0], rest);
  }
}

=== FILE: conv.dfy ===
/**
 * The instrumented `Eval` of the CONV_2D kernel. A file-static counter of
 * projection layers selects block 5 (counter value 4) of an inverted-residual
 * network; for that block the expansion and projection 1x1 layers dump their
 * operands before the type checks, and a projection that evaluates
 * successfully also dumps its output. The numeric kernels are opaque: a
 * dispatch that selects one is a successful evaluation.
 */
module Conv {
  import opened Wrappers
  import opened Tensors
  import opened QuantDump
  import opened DataCapture
  import opened Capture

  // ---------------------------------------------------------------------------
  // Shape predicates
  // ---------------------------------------------------------------------------

  /** The source reads input and output extent 3 and filter extents 1 and 2. */
  predicate Indexable(inv: Invocation)
  {
    |inv.input.dims| >= 4 && |inv.output.dims| >= 4 && |inv.filter.dims| >= 3
  }

  function InputDepth(inv: Invocation): nat
    requires Indexable(inv)
  {
    inv.input.dims[3]
  }

  function OutputDepth(inv: Invocation): nat
    requires Indexable(inv)
  {
    inv.output.dims[3]
  }

  predicate Is1x1(inv: Invocation)
    requires Indexable(inv)
  {
    inv.filter.dims[1] == 1 && inv.filter.dims[2] == 1
  }

  predicate IsExpansion(inv: Invocation)
    requires Indexable(inv)
  {
    Is1x1(inv) && OutputDepth(inv) > InputDepth(inv)
  }

  predicate IsProjection(inv: Invocation)
    requires Indexable(inv)
  {
    Is1x1(inv) && OutputDepth(inv) < InputDepth(inv)
  }

  /**
   * Expansion and projection are both 1x1 and never both hold; a 1x1 layer
   * that keeps its depth is neither.
   */
  lemma ShapeClasses(inv: Invocation)
    requires Indexable(inv)
    ensures IsExpansion(inv) ==> Is1x1(inv) && !IsProjection(inv)
    ensures IsProjection(inv) ==> Is1x1(inv) && !IsExpansion(inv)
    ensures Is1x1(inv) ==> IsExpansion(inv) || IsProjection(inv) || OutputDepth(inv) == InputDepth(inv)
    ensures !Is1x1(inv) ==> !IsExpansion(inv) && !IsProjection(inv)
  {
  }

  // ---------------------------------------------------------------------------
  // Type gate and dispatch
  // ---------------------------------------------------------------------------

  datatype EvalError =
    | TypeMismatch(inputType: ElemType, outputType: ElemType)
    | HybridUnsupported(inputType: ElemType, filterType: ElemType)
    | WeightTypeUnsupported(filterType: ElemType)
    | InputTypeUnsupported(inputType: ElemType)

  /** The reference kernel an evaluation runs. */
  datatype Kernel = FloatConv | Int16Conv | Int8Int4Conv | Int8PerChannelConv

  /** The (input, filter, output) type triples that evaluate, as a table. */
  const SupportedTypes: set<(ElemType, ElemType, ElemType)> := {
    (Float32, Float32, Float32),
    (Int16, Int16, Int16),
    (Int16, Int8, Int16),
    (Int8, Int8, Int8),
    (Int8, Int4, Int8)
  }

  /**
   * The type checks and the switch of Eval: input and output types must
   * agree, the filter type must match the input or be a supported weight
   * packing, and only float32, int16 and int8 inputs have a kernel.
   */
  function Dispatch(input: ElemType, filter: ElemType, output: ElemType): (r: Result<Kernel, EvalError>)
    ensures r.Success? <==> (input, filter, output) in SupportedTypes
    ensures input != output ==> r == Failure(TypeMismatch(input, output))
    ensures r.Failure? ==> !r.error.WeightTypeUnsupported?
    ensures r.Success? ==> (r.value == Int8Int4Conv <==> filter == Int4)
    ensures r.Success? ==> (r.value == FloatConv <==> input == Float32)
    ensures r.Success? ==> (r.value == Int16Conv <==> input == Int16)
    ensures r.Success? ==> (r.value == Int8PerChannelConv <==> input == Int8 && filter == Int8)
    ensures input == output && !(input == filter || (input == Int16 && filter == Int8) || (input == Int8 && filter == Int4))
            ==> r == Failure(HybridUnsupported(input, filter))
    ensures r == Failure(InputTypeUnsupported(input))
            <==> input == output && input == filter && input !in {Float32, Int16, Int8}
  {
    if input != output then
      Failure(TypeMismatch(input, output))
    else if !(input == filter || (input == Int16 && filter == Int8) || (input == Int8 && filter == Int4)) then
      Failure(HybridUnsupported(input, filter))
    else
      match input
      case Float32 => Success(FloatConv)
      case Int16 => Success(Int16Conv)
      case Int8 =>
        (match filter
         case Int4 => Success(Int8Int4Conv)
         case Int8 => Success(Int8PerChannelConv)
         case _ => Failure(WeightTypeUnsupported(filter)))
      case _ => Failure(InputTypeUnsupported(input))
  }

  predicate Supported(inv: Invocation)
  {
    (inv.input.kind, inv.filter.kind, inv.output.kind) in SupportedTypes
  }

  // ---------------------------------------------------------------------------
  // Capture state machine
  // ---------------------------------------------------------------------------

  /** `conv_bn_counter`: projection layers evaluated so far. */
  datatype State = State(counter: nat)

  const Initial: State := State(0)

  datatype Status = Ok | Error(reason: EvalError)

  /** One Eval call: the new state, the returned status, what was printed. */
  datatype Step = Step(state: State, status: Status, sections: seq<Section>)

  const OutputName: string := "bn5_final_output"

  function PreDump(s: State, inv: Invocation): seq<Section>
    requires Indexable(inv)
  {
    (if IsExpansion(inv) && s.counter == 4 then LayerCapture("bn5_ex", "EXPANSION", inv, OutputDepth(inv)) else [])
    + (if IsProjection(inv) && s.counter == 4 then LayerCapture("bn5_pr", "PROJECTION", inv, OutputDepth(inv)) else [])
  }

  function PostDump(inv: Invocation): seq<Section>
  {
    [OutputHeading("BN 5: FINAL OUTPUT DATA"), Int8Array(OutputName, inv.output)]
  }

  /**
   * Eval: the pre-evaluation dump (before any type check), the type gate and
   * dispatch, then on success the post-evaluation dump and the counter step.
   */
  function Eval(s: State, inv: Invocation): (r: Step)
    requires Indexable(inv)
    ensures r.status.Ok? <==> Supported(inv)
    ensures r.state.counter == s.counter + (if IsProjection(inv) && r.status.Ok? then 1 else 0)
    ensures r.status.Error? ==> r.state == s
    ensures r.status.Error? ==> Dispatch(inv.input.kind, inv.filter.kind, inv.output.kind) == Failure(r.status.reason)
    ensures |r.sections| > 0 <==> s.counter == 4 && (IsExpansion(inv) || IsProjection(inv))
    ensures CountArray(r.sections, OutputName)
         == if IsProjection(inv) && s.counter == 4 && r.status.Ok? then 1 else 0
  {
    var pre := PreDump(s, inv);
    match Dispatch(inv.input.kind, inv.filter.kind, inv.output.kind)
    case Failure(e) =>
      PreDumpNoOutput(s, inv);
      Step(s, Error(e), pre)
    case Success(_) =>
      var post := if IsProjection(inv) && s.counter == 4 then PostDump(inv) else [];
      PreDumpNoOutput(s, inv);
      PostDumpCount(inv);
      CountArrayAppend(pre, post, OutputName);
      Step(State(if IsProjection(inv) then s.counter + 1 else s.counter), Ok, pre + post)
  }

  lemma PreDumpNoOutput(s: State, inv: Invocation)
    requires Indexable(inv)
    ensures CountArray(PreDump(s, inv), OutputName) == 0
    ensures |PreDump(s, inv)| > 0 <==> s.counter == 4 && (IsExpansion(inv) || IsProjection(inv))
  {
    var ex := if IsExpansion(inv) && s.counter == 4 then LayerCapture("bn5_ex", "EXPANSION", inv, OutputDepth(inv)) else [];
    var pr := if IsProjection(inv) && s.counter == 4 then LayerCapture("bn5_pr", "PROJECTION", inv, OutputDepth(inv)) else [];
    CountArrayAppend(ex, pr, OutputName);
    LayerCaptureNoOutput("bn5_ex", "EXPANSION", inv, OutputDepth(inv));
    LayerCaptureNoOutput("bn5_pr", "PROJECTION", inv, OutputDepth(inv));
  }

  lemma LayerCaptureNoOutput(prefix: string, kind: string, inv: Invocation, channels: nat)
    requires prefix == "bn5_ex" || prefix == "bn5_pr"
    ensures CountArray(LayerCapture(prefix, kind, inv, channels), OutputName) == 0
  {
    var secs := LayerCapture(prefix, kind, inv, channels);
    forall i | 0 <= i < |secs| ensures !(secs[i].Int8Array? && secs[i].name == OutputName) {
      if secs[i].Int8Array? {
        assert |secs[i].name| < |OutputName|;
      }
    }
    CountArrayAbsent(secs, OutputName);
  }

  lemma PostDumpCount(inv: Invocation)
    ensures CountArray(PostDump(inv), OutputName) == 1
  {
    var post := PostDump(inv);
    assert post[1..] == [Int8Array(OutputName, inv.output)];
    assert post[1..][1..] == [];
    assert CountArray(post[1..][1..], OutputName) == 0;
    assert CountArray(post[1..], OutputName) == 1;
    assert !post[0].Int8Array?;
  }

  // ---------------------------------------------------------------------------
  // What a single call prints
  // ---------------------------------------------------------------------------

  /**
   * At counter 4 an expansion or projection layer is dumped before the type
   * gate runs, so even a call that fails prints it: input feature map, filter,
   * bias only when the node has one, then requantization parameters for
   * output-depth channels; a projection that evaluates adds its output last.
   */
  lemma PreDumpContents(s: State, inv: Invocation)
    requires Indexable(inv) && s.counter == 4
    requires IsExpansion(inv) || IsProjection(inv)
    ensures var prefix := if IsExpansion(inv) then "bn5_ex" else "bn5_pr";
      ArrayNames(Eval(s, inv).sections)
      == [prefix + "_ifmap", prefix + "_filter"]
       + (if inv.bias.Some? then [prefix + "_bias"] else [])
       + [prefix]
       + (if IsProjection(inv) && Supported(inv) then [OutputName] else [])
    ensures QuantChannels(Eval(s, inv).sections) == [OutputDepth(inv)]
    ensures !Supported(inv) ==> Eval(s, inv).status.Error? && |Eval(s, inv).sections| > 0
  {
    var prefix := if IsExpansion(inv) then "bn5_ex" else "bn5_pr";
    var kind := if IsExpansion(inv) then "EXPANSION" else "PROJECTION";
    var layer := LayerCapture(prefix, kind, inv, OutputDepth(inv));
    EvalSections(s, inv, prefix, kind);
    LayerCaptureOrder(prefix, kind, inv, OutputDepth(inv));
    LayerCaptureChannels(prefix, kind, inv, OutputDepth(inv));
    var post := if IsProjection(inv) && Supported(inv) then PostDump(inv) else [];
    ArrayNamesAppend(layer, post);
    QuantChannelsAppend(layer, post);
    if post != [] {
      assert post == [post[0]] + [post[1]];
      ArrayNamesAppend([post[0]], [post[1]]);
      QuantChannelsAppend([post[0]], [post[1]]);
      SingleSection(post[0]);
      SingleSection(post[1]);
      assert [post[0]][1..] == [] && [post[1]][1..] == [];
    }
  }

  /**
   * The text a call at counter 4 prints, when the operand buffers can be
   * read: the banner, the input under `_ifmap`, the filter under `_filter`,
   * the bias under `_bias` when the node has one, the invocation's
   * requantization parameters for output-depth channels, and, after an
   * accepted projection only, the output under the final-output name.
   */
  lemma EvalText(s: State, inv: Invocation)
    requires Indexable(inv) && s.counter == 4
    requires IsExpansion(inv) || IsProjection(inv)
    requires BuffersCover(inv)
    ensures AllRenderable(Eval(s, inv).sections)
    ensures var prefix := if IsExpansion(inv) then "bn5_ex" else "bn5_pr";
      var kind := if IsExpansion(inv) then "EXPANSION" else "PROJECTION";
      Transcript(Eval(s, inv).sections)
      == BannerText("BN 5: " + kind + " LAYER DATA")
       + PrintTensor(prefix + "_ifmap", inv.input)
       + PrintTensor(prefix + "_filter", inv.filter)
       + BiasText(prefix + "_bias", inv.bias)
       + PrintQuantParams(prefix, inv.data, OutputDepth(inv))
       + (if IsProjection(inv) && Supported(inv)
          then HeadingText("BN 5: FINAL OUTPUT DATA") + PrintTensor(OutputName, inv.output)
          else "")
  {
    var prefix := if IsExpansion(inv) then "bn5_ex" else "bn5_pr";
    var kind := if IsExpansion(inv) then "EXPANSION" else "PROJECTION";
    var post := if IsProjection(inv) && Supported(inv) then PostDump(inv) else [];
    var postText := if IsProjection(inv) && Supported(inv)
      then HeadingText("BN 5: FINAL OUTPUT DATA") + PrintTensor(OutputName, inv.output)
      else "";
    EvalSections(s, inv, prefix, kind);
    if post != [] {
      PostDumpText(inv);
    }
    LayerCaptureThen(prefix, kind, inv, OutputDepth(inv), post, postText);
  }

  /** At counter 4 a call prints its layer dump, then the output if it is an accepted projection. */
  lemma EvalSections(s: State, inv: Invocation, prefix: string, kind: string)
    requires Indexable(inv) && s.counter == 4
    requires IsExpansion(inv) || IsProjection(inv)
    requires prefix == (if IsExpansion(inv) then "bn5_ex" else "bn5_pr")
    requires kind == (if IsExpansion(inv) then "EXPANSION" else "PROJECTION")
    ensures Eval(s, inv).sections
         == LayerCapture(prefix, kind, inv, OutputDepth(inv))
          + (if IsProjection(inv) && Supported(inv) then PostDump(inv) else [])
  {
    var layer := LayerCapture(prefix, kind, inv, OutputDepth(inv));
    if IsExpansion(inv) {
      assert PreDump(s, inv) == layer + [];
    } else {
      assert PreDump(s, inv) == [] + layer;
    }
  }

  lemma PostDumpText(inv: Invocation)
    requires Readable8(inv.output)
    ensures AllRenderable(PostDump(inv))
    ensures Transcript(PostDump(inv)) == HeadingText("BN 5: FINAL OUTPUT DATA") + PrintTensor(OutputName, inv.output)
  {
    var post := PostDump(inv);
    TranscriptSingle(post[0]);
    TranscriptSingle(post[1]);
    assert post == [post[0]] + [post[1]];
    TranscriptAppend([post[0]], [post[1]]);
  }

  /** Operand buffers large enough for every array the capture may print. */
  predicate BuffersCover(inv: Invocation)
    requires Indexable(inv)
  {
    && Readable8(inv.input) && Readable8(inv.filter) && Readable8(inv.output)
    && (inv.bias.Some? ==> Readable32(inv.bias.value))
    && Covers(inv.data, OutputDepth(inv))
  }

  /** With such buffers everything a call prints can be printed. */
  lemma EvalPrintable(s: State, inv: Invocation)
    requires Indexable(inv) && BuffersCover(inv)
    ensures forall i :: 0 <= i < |Eval(s, inv).sections| ==> Renderable(Eval(s, inv).sections[i])
  {
  }

  // ---------------------------------------------------------------------------
  // Runs of calls
  // ---------------------------------------------------------------------------

  predicate AllIndexable(invs: seq<Invocation>)
  {
    forall i :: 0 <= i < |invs| ==> Indexable(invs[i])
  }

  /** The Eval calls of a process, one after another; returns the final state and all output. */
  function Run(s: State, invs: seq<Invocation>): (State, seq<Section>)
    requires AllIndexable(invs)
    decreases |invs|
  {
    if |invs| == 0 then (s, [])
    else
      var step := Eval(s, invs[0]);
      var rest := Run(step.state, invs[1..]);
      (rest.0, step.sections + rest.1)
  }

  /** Reference count, independent of the state: projections whose types evaluate. */
  function CountProjections(invs: seq<Invocation>): nat
    requires AllIndexable(invs)
  {
    if |invs| == 0 then 0
    else (if IsProjection(invs[0]) && Supported(invs[0]) then 1 else 0) + CountProjections(invs[1..])
  }

  /**
   * The counter advances once per projection that evaluates and on no other
   * call; errors and non-projection layers leave it alone.
   */
  lemma {:induction false} RunCounter(s: State, invs: seq<Invocation>)
    requires AllIndexable(invs)
    ensures Run(s, invs).0.counter == s.counter + CountProjections(invs)
    decreases |invs|
  {
    if |invs| > 0 {
      RunCounter(Eval(s, invs[0]).state, invs[1..]);
    }
  }

  /** Past block 5 nothing is ever printed again, and the counter stays past it. */
  lemma {:induction false} RunSilentAfterCapture(s: State, invs: seq<Invocation>)
    requires AllIndexable(invs) && s.counter > 4
    ensures Run(s, invs).1 == [] && Run(s, invs).0.counter > 4
    decreases |invs|
  {
    if |invs| > 0 {
      RunSilentAfterCapture(Eval(s, invs[0]).state, invs[1..]);
    }
  }

  /**
   * The final output of block 5 is printed at most once per process, and
   * never once the counter has passed 4.
   */
  lemma {:induction false} RunOutputOnce(s: State, invs: seq<Invocation>)
    requires AllIndexable(invs)
    ensures CountArray(Run(s, invs).1, OutputName) <= if s.counter <= 4 then 1 else 0
    decreases |invs|
  {
    if |invs| > 0 {
      var step := Eval(s, invs[0]);
      CountArrayAppend(step.sections, Run(step.state, invs[1..]).1, OutputName);
      if CountArray(step.sections, OutputName) > 0 {
        RunSilentAfterCapture(step.state, invs[1..]);
      } else {
        RunOutputOnce(step.state, invs[1..]);
      }
    }
  }

  /** While the counter cannot reach 4, no call prints anything. */
  lemma {:induction false} RunSilentBeforeCapture(s: State, invs: seq<Invocation>)
    requires AllIndexable(invs) && s.counter + CountProjections(invs) < 4
    ensures Run(s, invs).1 == []
    decreases |invs|
  {
    if |invs| > 0 {
      RunSilentBeforeCapture(Eval(s, invs[0]).state, invs[1..]);
    }
  }

  /**
   * From process start: the counter equals the number of projections that
   * evaluated, a process with fewer than four of them prints nothing, and
   * the final output of block 5 appears at most once.
   */
  lemma FromStart(invs: seq<Invocation>)
    requires AllIndexable(invs)
    ensures Run(Initial, invs).0.counter == CountProjections(invs)
    ensures CountProjections(invs) < 4 ==> Run(Initial, invs).1 == []
    ensures CountArray(Run(Initial, invs).1, OutputName) <= 1
  {
    RunCounter(Initial, invs);
    if CountProjections(invs) < 4 {
      RunSilentBeforeCapture(Initial, invs);
    }
    RunOutputOnce(Initial, invs);
  }

  /**
   * A projection that evaluates at counter 4 ends the capture: the counter
   * moves to 5 and no later call prints anything.
   */
  lemma CaptureEnds(s: State, inv: Invocation, later: seq<Invocation>)
    requires Indexable(inv) && AllIndexable(later)
    requires s.counter == 4 && IsProjection(inv) && Supported(inv)
    ensures Eval(s, inv).state.counter == 5
    ensures Run(Eval(s, inv).state, later).1 == []
  {
    RunSilentAfterCapture(Eval(s, inv).state, later);
  }

  /**
   * There is no latch in this kernel: an expansion seen again while the
   * counter is 4 is dumped again.
   */
  lemma ExpansionDumpRepeats(inv: Invocation)
    requires Indexable(inv) && IsExpansion(inv)
    ensures CountArray(Run(State(4), [inv, inv]).1, "bn5_ex_ifmap") == 2
  {
    var step := Eval(State(4), inv);
    var layer := LayerCapture("bn5_ex", "EXPANSION", inv, OutputDepth(inv));
    assert PreDump(State(4), inv) == layer + [];
    assert step.sections == layer + [] + [];
    assert step.state == State(4);
    assert [inv, inv][1..] == [inv];
    assert [inv][1..] == [];
    LayerCaptureInputOnce("bn5_ex", "EXPANSION", inv, OutputDepth(inv));
    assert Run(State(4), [inv]).1 == layer + [];
    CountArrayAppend(layer, layer, "bn5_ex_ifmap");
    assert Run(State(4), [inv, inv]).1 == layer + layer;
  }

  // ---------------------------------------------------------------------------
  // A concrete block
  // ---------------------------------------------------------------------------

  function Zeros8(n: nat): seq<Byte>
  {
    seq(n, _ => 0)
  }

  /** An int8 1x1 layer taking a [1,1,1,16] map to 32 channels. */
  const ExpansionExample: Invocation := Invocation(
    Tensor(Int8, [1, 1, 1, 16], Zeros8(16)),
    Tensor(Int8, [32, 1, 1, 16], Zeros8(512)),
    None,
    Tensor(Int8, [1, 1, 1, 32], Zeros8(32)),
    QuantParams(0, 0, seq(32, _ => 0x4000_0000), seq(32, _ => -1)))

  /**
   * The int8 expansion [1,1,1,16] -> 32 channels: evaluated at counter 4 it
   * prints its pre-evaluation dump but no output (expansions never get one);
   * evaluated at counter 3 it prints nothing.
   */
  lemma ExpansionScenario()
    ensures Indexable(ExpansionExample) && IsExpansion(ExpansionExample)
    ensures Eval(State(4), ExpansionExample).status == Ok
    ensures |Eval(State(4), ExpansionExample).sections| > 0
    ensures CountArray(Eval(State(4), ExpansionExample).sections, OutputName) == 0
    ensures Eval(State(3), ExpansionExample).sections == []
    ensures Eval(State(4), ExpansionExample).state == State(4)
  {
  }
}

=== FILE: data_capture.dfy ===
/**
 * The two `print_tensor_as_h` overloads: a shape comment followed by a C
 * array literal of the tensor's elements, sixteen `int8_t` per line in
 * `0x%02x` form, or eight `int32_t` bias words per line in `0x%08x` form.
 */
module DataCapture {
  import opened Wrappers
  import opened Format
  import opened Listing
  import opened Tensors

  /** Loop over the dimensions: each extent, then ", " unless it is the last. */
  function ShapeList(dims: seq<nat>): string
    decreases |dims|
  {
    if |dims| == 0 then ""
    else Decimal(dims[0]) + (if |dims| > 1 then ", " else "") + ShapeList(dims[1..])
  }

  /** `// Tensor '<name>', Shape: [<d0>, <d1>, ...]` and a newline. */
  function ShapeComment(name: string, dims: seq<nat>): string
  {
    "// Tensor '" + name + "', Shape: [" + ShapeList(dims) + "]\n"
  }

  /** Reads a shape list back: comma-separated decimals, nothing for rank 0. */
  function ParseShapeList(s: string): Option<seq<int>>
  {
    if |s| == 0 then Some([]) else ParseCells(s + ",", ParseDecimal)
  }

  /** The `int8_t` overload's element texts: `0x%02x` of each byte promoted to `int`. */
  function Int8Items(t: Tensor): (items: seq<string>)
    requires Readable8(t)
  {
    seq(FlatSize(t.dims), i requires 0 <= i < FlatSize(t.dims) => Hex(Int8At(t, i), 2))
  }

  function Int8Body(t: Tensor): string
    requires Readable8(t)
  {
    BreakBefore(Int8Items(t), 16, 0)
  }

  /** `print_tensor_as_h(name, tensor)`. */
  function PrintTensor(name: string, t: Tensor): string
    requires Readable8(t)
  {
    ShapeComment(name, t.dims) + "const int8_t " + name + "[] = {" + Int8Body(t) + "\n};\n\n"
  }

  /** The bias overload's element texts: `0x%08x` of each `int32_t`. */
  function BiasItems(t: Tensor): (items: seq<string>)
    requires Readable32(t)
  {
    seq(FlatSize(t.dims), i requires 0 <= i < FlatSize(t.dims) => Hex(Int32At(t, i), 8))
  }

  function BiasBody(t: Tensor): string
    requires Readable32(t)
  {
    BreakBefore(BiasItems(t), 8, 0)
  }

  /** `print_tensor_as_h(name, tensor, true)`: the shape is shown flattened. */
  function PrintBias(name: string, t: Tensor): string
    requires Readable32(t)
  {
    ShapeComment(name, [FlatSize(t.dims)]) + "const int32_t " + name + "[] = {" + BiasBody(t) + "\n};\n\n"
  }

  // ---------------------------------------------------------------------------
  // Element texts are tokens that read back as their values
  // ---------------------------------------------------------------------------

  lemma NumberTextIsToken(s: string)
    requires |s| > 0 && forall i :: 0 <= i < |s| ==> IsNumberChar(s[i])
    ensures IsToken(s)
    ensures forall j :: 0 <= j < |s| ==> s[j] != '\n'
  {
  }

  lemma HexDecodes(vs: seq<int>, width: nat)
    requires forall i :: 0 <= i < |vs| ==> InInt32(vs[i])
    ensures Decodes(seq(|vs|, i requires 0 <= i < |vs| => Hex(vs[i], width)), vs, ParseHex)
    ensures NoNewline(seq(|vs|, i requires 0 <= i < |vs| => Hex(vs[i], width)))
  {
    var items := seq(|vs|, i requires 0 <= i < |vs| => Hex(vs[i], width));
    forall i | 0 <= i < |vs|
      ensures IsToken(items[i]) && ParseHex(items[i]) == Some(vs[i])
      ensures forall j :: 0 <= j < |items[i]| ==> items[i][j] != '\n'
    {
      HexChars(vs[i], width);
      NumberTextIsToken(items[i]);
      HexRoundTrip(vs[i], width);
    }
  }

  lemma DecimalDecodes(vs: seq<int>)
    ensures Decodes(seq(|vs|, i requires 0 <= i < |vs| => Decimal(vs[i])), vs, ParseDecimal)
    ensures NoNewline(seq(|vs|, i requires 0 <= i < |vs| => Decimal(vs[i])))
  {
    var items := seq(|vs|, i requires 0 <= i < |vs| => Decimal(vs[i]));
    forall i | 0 <= i < |vs|
      ensures IsToken(items[i]) && ParseDecimal(items[i]) == Some(vs[i])
      ensures forall j :: 0 <= j < |items[i]| ==> items[i][j] != '\n'
    {
      DecimalChars(vs[i]);
      NumberTextIsToken(items[i]);
      DecimalRoundTrip(vs[i]);
    }
  }

  // ---------------------------------------------------------------------------
  // Shape comment
  // ---------------------------------------------------------------------------

  /**
   * The shape list names every extent, in order, separated by ", ": reading
   * it back gives the shape itself.
   */
  lemma {:induction false} ShapeListReadsBack(dims: seq<nat>)
    ensures ParseShapeList(ShapeList(dims)) == Some(dims)
    decreases |dims|
  {
    if |dims| > 0 {
      ShapeListNonEmpty(dims);
      ShapeListCells(dims);
    }
  }

  lemma ShapeListNonEmpty(dims: seq<nat>)
    requires |dims| > 0
    ensures |ShapeList(dims)| > 0
  {
  }

  lemma {:induction false} ShapeListCells(dims: seq<nat>)
    requires |dims| > 0
    ensures ParseCells(ShapeList(dims) + ",", ParseDecimal) == Some(dims)
    decreases |dims|
  {
    var tok := Decimal(dims[0]);
    DecimalChars(dims[0]);
    NumberTextIsToken(tok);
    DecimalRoundTrip(dims[0]);
    if |dims| == 1 {
      assert ShapeList(dims) + "," == tok + "," + "";
      ParseCellsComma(tok, dims[0], "", ParseDecimal);
      assert ParseCells("", ParseDecimal) == Some([]);
      assert [dims[0]] + [] == dims;
    } else {
      var rest := ShapeList(dims[1..]) + ",";
      assert ShapeList(dims) + "," == tok + ", " + rest;
      ParseCellsToken(tok, dims[0], rest, ParseDecimal);
      ShapeListCells(dims[1..]);
      HeadTail(dims);
    }
  }

  /** The list never ends in a separator: its last character is a digit. */
  lemma {:induction false} ShapeListEndsInDigit(dims: seq<nat>)
    requires |dims| > 0
    ensures |ShapeList(dims)| > 0 && IsDigitChar(ShapeList(dims)[|ShapeList(dims)| - 1])
    decreases |dims|
  {
    if |dims| == 1 {
      assert ShapeList(dims) == Decimal(dims[0]) + "" + "";
      assert Decimal(dims[0]) == Numeral(dims[0], 10);
    } else {
      ShapeListEndsInDigit(dims[1..]);
    }
  }

  // ---------------------------------------------------------------------------
  // int8 overload
  // ---------------------------------------------------------------------------

  /**
   * The listing holds exactly FlatSize elements, in flat buffer order: it
   * reads back as the buffer's first FlatSize `int8_t` values.
   */
  lemma PrintTensorReadsBack(t: Tensor)
    requires Readable8(t)
    ensures ParseCells(Int8Body(t), ParseHex) == Some(Int8Values(t, FlatSize(t.dims)))
  {
    var vs := Int8Values(t, FlatSize(t.dims));
    HexDecodes(vs, 2);
    assert Int8Items(t) == seq(|vs|, i requires 0 <= i < |vs| => Hex(vs[i], 2));
    BreakBeforeReadsBack(Int8Items(t), vs, 16, 0, ParseHex);
  }

  /**
   * A break precedes element i exactly when i % 16 == 0, so k elements take
   * ceil(k / 16) lines, each opened by one newline.
   */
  lemma PrintTensorLines(t: Tensor)
    requires Readable8(t)
    ensures Int8Body(t) == OpenedLines(Chunks(Int8Items(t), 16))
    ensures Occurrences(Int8Body(t), '\n') == (FlatSize(t.dims) + 15) / 16
  {
    var vs := Int8Values(t, FlatSize(t.dims));
    HexDecodes(vs, 2);
    assert Int8Items(t) == seq(|vs|, i requires 0 <= i < |vs| => Hex(vs[i], 2));
    BreakBeforeIsOpenedLines(Int8Items(t), 16);
    BreakBeforeLines(Int8Items(t), 16);
  }

  /**
   * Each byte prints as `0x` and two hex digits when non-negative, and as
   * `0xffffff` and two more digits (the 32-bit two's-complement pattern of
   * the promoted `int`) when negative.
   */
  lemma PrintTensorElementWidths(t: Tensor, i: nat)
    requires Readable8(t) && i < FlatSize(t.dims)
    ensures Int8At(t, i) >= 0 ==> |Int8Items(t)[i]| == 4
    ensures Int8At(t, i) < 0 ==> |Int8Items(t)[i]| == 10 && Int8Items(t)[i][..8] == "0xffffff"
  {
    var v := Int8At(t, i);
    Int8HexWidth(v);
    var s := Hex(v, 2);
    assert s[..2] == "0x";
    if v < 0 {
      assert s[..8] == s[..2] + s[2..8];
    }
  }

  /**
   * The listing is framed by `{` and `\n};\n\n`; with no elements the array
   * is printed as `{\n};`.
   */
  lemma PrintTensorFraming(name: string, t: Tensor)
    requires Readable8(t)
    ensures var out := PrintTensor(name, t);
      |out| >= 5 && out[|out| - 5..] == "\n};\n\n"
    ensures FlatSize(t.dims) == 0 ==>
      PrintTensor(name, t) == ShapeComment(name, t.dims) + "const int8_t " + name + "[] = {\n};\n\n"
  {
    if FlatSize(t.dims) == 0 {
      assert Int8Items(t) == [];
    }
  }

  // ---------------------------------------------------------------------------
  // Bias overload
  // ---------------------------------------------------------------------------

  /**
   * The bias listing holds exactly FlatSize `int32_t` elements in buffer
   * order, each printed as ten characters (`0x` and eight hex digits).
   */
  lemma PrintBiasReadsBack(t: Tensor)
    requires Readable32(t)
    ensures ParseCells(BiasBody(t), ParseHex) == Some(Int32Values(t, FlatSize(t.dims)))
    ensures forall i :: 0 <= i < FlatSize(t.dims) ==> |BiasItems(t)[i]| == 10
  {
    var vs := Int32Values(t, FlatSize(t.dims));
    HexDecodes(vs, 8);
    assert BiasItems(t) == seq(|vs|, i requires 0 <= i < |vs| => Hex(vs[i], 8));
    BreakBeforeReadsBack(BiasItems(t), vs, 8, 0, ParseHex);
    forall i | 0 <= i < FlatSize(t.dims) ensures |BiasItems(t)[i]| == 10 {
      Hex8Width(Int32At(t, i));
    }
  }

  /** Bias elements wrap eight per line: ceil(k / 8) lines for k elements. */
  lemma PrintBiasLines(t: Tensor)
    requires Readable32(t)
    ensures BiasBody(t) == OpenedLines(Chunks(BiasItems(t), 8))
    ensures Occurrences(BiasBody(t), '\n') == (FlatSize(t.dims) + 7) / 8
  {
    var vs := Int32Values(t, FlatSize(t.dims));
    HexDecodes(vs, 8);
    assert BiasItems(t) == seq(|vs|, i requires 0 <= i < |vs| => Hex(vs[i], 8));
    BreakBeforeIsOpenedLines(BiasItems(t), 8);
    BreakBeforeLines(BiasItems(t), 8);
  }

  /**
   * Whatever the bias tensor's rank, its shape comment shows one extent, the
   * element count, and the output ends with `\n};\n\n`.
   */
  lemma PrintBiasShape(name: string, t: Tensor)
    requires Readable32(t)
    ensures var out := PrintBias(name, t);
      |out| >= 5 && out[|out| - 5..] == "\n};\n\n"
    ensures ShapeComment(name, [FlatSize(t.dims)]) <= PrintBias(name, t)
  {
  }
}

=== FILE: depthwise_conv.dfy ===
/**
 * The instrumented `Eval` of the DEPTHWISE_CONV_2D kernel. Its counter
 * advances on every call that evaluates, whatever the shape; at counter 4
 * every call dumps its operands before dispatch, the first such call also
 * prints a one-off debug window (guarded by a latch that is never cleared),
 * and a call that evaluates dumps its output.
 */
module DepthwiseConv {
  import opened Wrappers
  import opened Listing
  import opened Tensors
  import opened QuantDump
  import opened DataCapture
  import opened Capture

  // ---------------------------------------------------------------------------
  // Dispatch
  // ---------------------------------------------------------------------------

  datatype EvalError =
    | FilterTypeUnsupported(filterType: ElemType)
    | InputTypeUnsupported(inputType: ElemType)

  datatype Kernel = FloatDepthwise | Int8PerChannelDepthwise | Int8Int4Depthwise

  /** The int8 weight formats the int8 path accepts, as a table. */
  const Int8Filters: set<ElemType> := {Int8, Int4}

  /**
   * The switch of Eval: a float32 input evaluates whatever the filter type;
   * an int8 input needs an int8 or int4 filter; every other input type,
   * int16 included, is an error. The output type is not checked.
   */
  function Dispatch(input: ElemType, filter: ElemType): (r: Result<Kernel, EvalError>)
    ensures r.Success? <==> input == Float32 || (input == Int8 && filter in Int8Filters)
    ensures input != Float32 && input != Int8 ==> r == Failure(InputTypeUnsupported(input))
    ensures input == Int8 && filter !in Int8Filters ==> r == Failure(FilterTypeUnsupported(filter))
    ensures r.Success? ==> (r.value == Int8Int4Depthwise <==> input == Int8 && filter == Int4)
    ensures r.Success? ==> (r.value == Int8PerChannelDepthwise <==> input == Int8 && filter == Int8)
    ensures r.Success? ==> (r.value == FloatDepthwise <==> input == Float32)
  {
    match input
    case Float32 => Success(FloatDepthwise)
    case Int8 =>
      (match filter
       case Int8 => Success(Int8PerChannelDepthwise)
       case Int4 => Success(Int8Int4Depthwise)
       case _ => Failure(FilterTypeUnsupported(filter)))
    case _ => Failure(InputTypeUnsupported(input))
  }

  predicate Supported(inv: Invocation)
  {
    Dispatch(inv.input.kind, inv.filter.kind).Success?
  }

  // ---------------------------------------------------------------------------
  // Debug window
  // ---------------------------------------------------------------------------

  /** The reads of the debug dump stay inside the input and filter buffers. */
  predicate WindowReadable(inv: Invocation)
  {
    var d := inv.input.dims;
    && |d| == 4 && d[0] >= 1 && d[1] >= 3 && d[2] >= 3 && d[3] >= 1
    && Readable8(inv.input)
    && 9 <= |inv.filter.bytes|
  }

  /** Input element (0, y, x, 0) as `int8_t`. */
  function WindowAt(inv: Invocation, y: nat, x: nat): int
    requires WindowReadable(inv) && y < 3 && x < 3
  {
    Int8At(inv.input, Offset4(inv.input.dims, 0, y, x, 0))
  }

  function WindowRow(inv: Invocation, y: nat): seq<int>
    requires WindowReadable(inv) && y < 3
  {
    [WindowAt(inv, y, 0), WindowAt(inv, y, 1), WindowAt(inv, y, 2)]
  }

  /**
   * The top-left 3x3 window of channel 0: nine values, rows outer and
   * columns inner.
   */
  function WindowValues(inv: Invocation): (r: seq<int>)
    requires WindowReadable(inv)
    ensures |r| == 9
    ensures forall y, x :: 0 <= y < 3 && 0 <= x < 3 ==> r[3 * y + x] == WindowAt(inv, y, x)
  {
    WindowRow(inv, 0) + WindowRow(inv, 1) + WindowRow(inv, 2)
  }

  // ---------------------------------------------------------------------------
  // Capture state machine
  // ---------------------------------------------------------------------------

  /** `dw_bn_counter` and `has_printed_dw_debug`. */
  datatype State = State(counter: nat, printedDebug: bool)

  const Initial: State := State(0, false)

  datatype Status = Ok | Error(reason: EvalError)

  datatype Step = Step(state: State, status: Status, sections: seq<Section>)

  const OutputName: string := "bn5_dw_output_pr_ifmap"

  /** The name prefix and title word of the depthwise layer dump. */
  const Prefix: string := "bn5_dw"
  const Kind: string := "DEPTHWISE"

  /** What the source reads before dispatch is there to be read. */
  predicate Callable(s: State, inv: Invocation)
  {
    && (s.counter == 4 ==> |inv.output.dims| >= 4)
    && (s.counter == 4 && !s.printedDebug ==> WindowReadable(inv))
  }

  function PreDump(s: State, inv: Invocation): seq<Section>
    requires Callable(s, inv)
  {
    if s.counter == 4 then
      LayerCapture(Prefix, Kind, inv, inv.output.dims[3])
      + (if !s.printedDebug then [DebugSection(inv)] else [])
    else []
  }

  function DebugSection(inv: Invocation): Section
    requires WindowReadable(inv)
  {
    DebugWindow(WindowValues(inv), Int8Values(inv.filter, 9))
  }

  function PostDump(inv: Invocation): seq<Section>
  {
    [OutputHeading("BN 5: DEPTHWISE LAYER OUTPUT (PROJECTION INPUT)"), Int8Array(OutputName, inv.output)]
  }

  /**
   * Eval: the pre-evaluation dump and one-off debug window, dispatch, then on
   * success the post-evaluation dump and the counter step.
   */
  function Eval(s: State, inv: Invocation): (r: Step)
    requires Callable(s, inv)
    ensures r.status.Ok? <==> Supported(inv)
    ensures r.state.counter == s.counter + (if r.status.Ok? then 1 else 0)
    ensures r.status.Error? ==> Dispatch(inv.input.kind, inv.filter.kind) == Failure(r.status.reason)
    ensures r.state.printedDebug <==> s.printedDebug || s.counter == 4
    ensures |r.sections| > 0 <==> s.counter == 4
    ensures CountDebugWindows(r.sections) == if s.counter == 4 && !s.printedDebug then 1 else 0
    ensures CountArray(r.sections, OutputName) == if s.counter == 4 && r.status.Ok? then 1 else 0
  {
    var pre := PreDump(s, inv);
    var latch := s.printedDebug || s.counter == 4;
    PreDumpCounts(s, inv);
    match Dispatch(inv.input.kind, inv.filter.kind)
    case Failure(e) =>
      Step(State(s.counter, latch), Error(e), pre)
    case Success(_) =>
      var post := if s.counter == 4 then PostDump(inv) else [];
      PostDumpCounts(inv);
      CountArrayAppend(pre, post, OutputName);
      CountDebugWindowsAppend(pre, post);
      Step(State(s.counter + 1, latch), Ok, pre + post)
  }

  lemma PreDumpCounts(s: State, inv: Invocation)
    requires Callable(s, inv)
    ensures CountArray(PreDump(s, inv), OutputName) == 0
    ensures CountDebugWindows(PreDump(s, inv)) == if s.counter == 4 && !s.printedDebug then 1 else 0
  {
    if s.counter == 4 {
      var layer := LayerCapture(Prefix, Kind, inv, inv.output.dims[3]);
      var debug := if !s.printedDebug then [DebugSection(inv)] else [];
      forall i | 0 <= i < |layer| ensures !(layer[i].Int8Array? && layer[i].name == OutputName) {
        if layer[i].Int8Array? {
          assert |layer[i].name| < |OutputName|;
        }
      }
      CountArrayAbsent(layer, OutputName);
      CountArrayAbsent(debug, OutputName);
      CountArrayAppend(layer, debug, OutputName);
      LayerCaptureOrder("bn5_dw", "DEPTHWISE", inv, inv.output.dims[3]);
      CountDebugWindowsAppend(layer, debug);
      if debug != [] {
        SingleSection(debug[0]);
      }
    }
  }

  lemma PostDumpCounts(inv: Invocation)
    ensures CountArray(PostDump(inv), OutputName) == 1
    ensures CountDebugWindows(PostDump(inv)) == 0
  {
    var post := PostDump(inv);
    assert post == [post[0]] + [post[1]];
    SingleSection(post[0]);
    SingleSection(post[1]);
    CountDebugWindowsAppend([post[0]], [post[1]]);
    CountArrayAppend([post[0]], [post[1]], OutputName);
    assert [post[1]][1..] == [];
    assert CountArray([post[1]], OutputName) == 1;
    assert [post[0]][1..] == [];
    assert CountArray([post[0]], OutputName) == 0;
  }

  /** What a call prints: the pre-evaluation dump, then the post one on success. */
  lemma EvalSections(s: State, inv: Invocation)
    requires Callable(s, inv)
    ensures Eval(s, inv).sections
         == PreDump(s, inv) + (if s.counter == 4 && Supported(inv) then PostDump(inv) else [])
  {
  }

  /**
   * At counter 4 every call prints, before dispatch: input feature map,
   * filter, bias only when present, requantization parameters for as many
   * channels as output extent 3, and (first time only) the debug window; a
   * call that evaluates then prints its output.
   */
  lemma PreDumpContents(s: State, inv: Invocation)
    requires Callable(s, inv) && s.counter == 4
    ensures ArrayNames(Eval(s, inv).sections)
         == ["bn5_dw_ifmap", "bn5_dw_filter"]
          + (if inv.bias.Some? then ["bn5_dw_bias"] else [])
          + ["bn5_dw"]
          + (if Supported(inv) then [OutputName] else [])
    ensures QuantChannels(Eval(s, inv).sections) == [inv.output.dims[3]]
  {
    var pre := PreDump(s, inv);
    var post := if Supported(inv) then PostDump(inv) else [];
    EvalSections(s, inv);
    PreDumpNames(s, inv);
    ArrayNamesAppend(pre, post);
    QuantChannelsAppend(pre, post);
    if post != [] {
      PostDumpNames(inv);
    }
  }

  lemma PreDumpNames(s: State, inv: Invocation)
    requires Callable(s, inv) && s.counter == 4
    ensures ArrayNames(PreDump(s, inv))
         == ["bn5_dw_ifmap", "bn5_dw_filter"]
          + (if inv.bias.Some? then ["bn5_dw_bias"] else [])
          + ["bn5_dw"]
    ensures QuantChannels(PreDump(s, inv)) == [inv.output.dims[3]]
  {
    var layer := LayerCapture(Prefix, Kind, inv, inv.output.dims[3]);
    var debug := if !s.printedDebug then [DebugSection(inv)] else [];
    assert PreDump(s, inv) == layer + debug;
    assert "bn5_dw" + "_ifmap" == "bn5_dw_ifmap" && "bn5_dw" + "_filter" == "bn5_dw_filter";
    assert "bn5_dw" + "_bias" == "bn5_dw_bias";
    LayerCaptureOrder("bn5_dw", "DEPTHWISE", inv, inv.output.dims[3]);
    LayerCaptureChannels("bn5_dw", "DEPTHWISE", inv, inv.output.dims[3]);
    ArrayNamesAppend(layer, debug);
    QuantChannelsAppend(layer, debug);
    if debug != [] {
      assert debug == [DebugSection(inv)];
      SingleSection(DebugSection(inv));
      assert [DebugSection(inv)][1..] == [];
      assert ArrayNames(debug) == [];
      assert QuantChannels(debug) == [];
    }
  }

  lemma PostDumpNames(inv: Invocation)
    ensures ArrayNames(PostDump(inv)) == [OutputName]
    ensures QuantChannels(PostDump(inv)) == []
  {
    var post := PostDump(inv);
    assert post == [post[0]] + [post[1]];
    ArrayNamesAppend([post[0]], [post[1]]);
    QuantChannelsAppend([post[0]], [post[1]]);
    SingleSection(post[0]);
    SingleSection(post[1]);
    assert [post[0]][1..] == [] && [post[1]][1..] == [];
  }

  /** Operand buffers large enough for every array the capture may print. */
  predicate BuffersCover(inv: Invocation)
    requires |inv.output.dims| >= 4
  {
    LayerReadable(inv, inv.output.dims[3]) && Readable8(inv.output)
  }

  /**
   * The text a call at counter 4 prints, when the operand buffers can be
   * read: the banner, the input under `bn5_dw_ifmap`, the filter under
   * `bn5_dw_filter`, the bias under `bn5_dw_bias` when the node has one, the
   * invocation's requantization parameters for output extent 3 channels,
   * the debug window while the latch is clear, and, after an accepted call
   * only, the output under the depthwise output name.
   */
  lemma EvalText(s: State, inv: Invocation)
    requires Callable(s, inv) && s.counter == 4 && BuffersCover(inv)
    ensures AllRenderable(Eval(s, inv).sections)
    ensures Transcript(Eval(s, inv).sections)
         == BannerText("BN 5: " + Kind + " LAYER DATA")
          + PrintTensor(Prefix + "_ifmap", inv.input)
          + PrintTensor(Prefix + "_filter", inv.filter)
          + BiasText(Prefix + "_bias", inv.bias)
          + PrintQuantParams(Prefix, inv.data, inv.output.dims[3])
          + (if !s.printedDebug then DebugText(WindowValues(inv), Int8Values(inv.filter, 9)) else "")
          + (if Supported(inv)
             then HeadingText("BN 5: DEPTHWISE LAYER OUTPUT (PROJECTION INPUT)") + PrintTensor(OutputName, inv.output)
             else "")
  {
    EvalSplit(s, inv);
    SectionsText(s, inv, Eval(s, inv).sections);
  }

  /** The text of the sections a call at counter 4 prints, given as `secs`. */
  lemma SectionsText(s: State, inv: Invocation, secs: seq<Section>)
    requires Callable(s, inv) && s.counter == 4 && BuffersCover(inv)
    requires secs == LayerCapture(Prefix, Kind, inv, inv.output.dims[3])
                   + (if !s.printedDebug then [DebugSection(inv)] else [])
                   + (if Supported(inv) then PostDump(inv) else [])
    ensures AllRenderable(secs)
    ensures Transcript(secs)
         == BannerText("BN 5: " + Kind + " LAYER DATA")
          + PrintTensor(Prefix + "_ifmap", inv.input)
          + PrintTensor(Prefix + "_filter", inv.filter)
          + BiasText(Prefix + "_bias", inv.bias)
          + PrintQuantParams(Prefix, inv.data, inv.output.dims[3])
          + (if !s.printedDebug then DebugText(WindowValues(inv), Int8Values(inv.filter, 9)) else "")
          + (if Supported(inv)
             then HeadingText("BN 5: DEPTHWISE LAYER OUTPUT (PROJECTION INPUT)") + PrintTensor(OutputName, inv.output)
             else "")
  {
    if s.printedDebug {
      LatchedText(inv, secs);
    } else {
      DebugWindowText(inv);
      FreshText(inv, secs, DebugSection(inv), DebugText(WindowValues(inv), Int8Values(inv.filter, 9)));
    }
  }

  /** Once the latch is set, the layer text runs straight into the output dump. */
  lemma LatchedText(inv: Invocation, secs: seq<Section>)
    requires |inv.output.dims| >= 4 && BuffersCover(inv)
    requires secs == LayerCapture(Prefix, Kind, inv, inv.output.dims[3]) + []
                   + (if Supported(inv) then PostDump(inv) else [])
    ensures AllRenderable(secs)
    ensures Transcript(secs)
         == BannerText("BN 5: " + Kind + " LAYER DATA")
          + PrintTensor(Prefix + "_ifmap", inv.input)
          + PrintTensor(Prefix + "_filter", inv.filter)
          + BiasText(Prefix + "_bias", inv.bias)
          + PrintQuantParams(Prefix, inv.data, inv.output.dims[3])
          + ""
          + (if Supported(inv)
             then HeadingText("BN 5: DEPTHWISE LAYER OUTPUT (PROJECTION INPUT)") + PrintTensor(OutputName, inv.output)
             else "")
  {
    PostTranscript(inv);
    TranscriptEmpty();
    LayerCaptureThenTwo(Prefix, Kind, inv, inv.output.dims[3], [], "",
      if Supported(inv) then PostDump(inv) else [],
      if Supported(inv)
      then HeadingText("BN 5: DEPTHWISE LAYER OUTPUT (PROJECTION INPUT)") + PrintTensor(OutputName, inv.output)
      else "");
  }

  /** While the latch is clear, the debug section, whatever it renders to, sits between the two. */
  lemma FreshText(inv: Invocation, secs: seq<Section>, debug: Section, debugText: string)
    requires |inv.output.dims| >= 4 && BuffersCover(inv)
    requires AllRenderable([debug]) && Transcript([debug]) == debugText
    requires secs == LayerCapture(Prefix, Kind, inv, inv.output.dims[3]) + [debug]
                   + (if Supported(inv) then PostDump(inv) else [])
    ensures AllRenderable(secs)
    ensures Transcript(secs)
         == BannerText("BN 5: " + Kind + " LAYER DATA")
          + PrintTensor(Prefix + "_ifmap", inv.input)
          + PrintTensor(Prefix + "_filter", inv.filter)
          + BiasText(Prefix + "_bias", inv.bias)
          + PrintQuantParams(Prefix, inv.data, inv.output.dims[3])
          + debugText
          + (if Supported(inv)
             then HeadingText("BN 5: DEPTHWISE LAYER OUTPUT (PROJECTION INPUT)") + PrintTensor(OutputName, inv.output)
             else "")
  {
    PostTranscript(inv);
    LayerCaptureThenTwo(Prefix, Kind, inv, inv.output.dims[3], [debug], debugText,
      if Supported(inv) then PostDump(inv) else [],
      if Supported(inv)
      then HeadingText("BN 5: DEPTHWISE LAYER OUTPUT (PROJECTION INPUT)") + PrintTensor(OutputName, inv.output)
      else "");
  }

  /** The debug section renders as the window and filter arrays. */
  lemma DebugWindowText(inv: Invocation)
    requires WindowReadable(inv)
    ensures AllRenderable([DebugSection(inv)])
    ensures Transcript([DebugSection(inv)]) == DebugText(WindowValues(inv), Int8Values(inv.filter, 9))
  {
    TranscriptSingle(DebugSection(inv));
  }

  lemma EvalSplit(s: State, inv: Invocation)
    requires Callable(s, inv) && s.counter == 4
    ensures Eval(s, inv).sections
         == LayerCapture(Prefix, Kind, inv, inv.output.dims[3])
          + (if !s.printedDebug then [DebugSection(inv)] else [])
          + (if Supported(inv) then PostDump(inv) else [])
  {
    EvalSections(s, inv);
  }

  lemma PostTranscript(inv: Invocation)
    requires Readable8(inv.output)
    ensures var post := if Supported(inv) then PostDump(inv) else [];
      && AllRenderable(post)
      && Transcript(post)
         == if Supported(inv)
            then HeadingText("BN 5: DEPTHWISE LAYER OUTPUT (PROJECTION INPUT)") + PrintTensor(OutputName, inv.output)
            else ""
  {
    if Supported(inv) {
      PostDumpText(inv);
    } else {
      TranscriptEmpty();
    }
  }

  lemma PostDumpText(inv: Invocation)
    requires Readable8(inv.output)
    ensures AllRenderable(PostDump(inv))
    ensures Transcript(PostDump(inv))
         == HeadingText("BN 5: DEPTHWISE LAYER OUTPUT (PROJECTION INPUT)") + PrintTensor(OutputName, inv.output)
  {
    var post := PostDump(inv);
    TranscriptSingle(post[0]);
    TranscriptSingle(post[1]);
    assert post == [post[0]] + [post[1]];
    TranscriptAppend([post[0]], [post[1]]);
  }

  /**
   * The first call at counter 4 follows the requantization dump with the
   * debug window: the nine input values at (0, y, x, 0), rows outer, then
   * the first nine filter bytes in index order.
   */
  lemma DebugDumpContents(s: State, inv: Invocation)
    requires Callable(s, inv) && s.counter == 4 && !s.printedDebug
    ensures var k := if inv.bias.Some? then 5 else 4;
      && k < |Eval(s, inv).sections|
      && Eval(s, inv).sections[k - 1].QuantArrays?
      && Eval(s, inv).sections[k].DebugWindow?
      && |Eval(s, inv).sections[k].window| == 9
      && (forall y, x :: 0 <= y < 3 && 0 <= x < 3 ==>
            Eval(s, inv).sections[k].window[3 * y + x] == Int8At(inv.input, Offset4(inv.input.dims, 0, y, x, 0)))
      && |Eval(s, inv).sections[k].filterHead| == 9
      && (forall i :: 0 <= i < 9 ==> Eval(s, inv).sections[k].filterHead[i] == Int8At(inv.filter, i))
  {
    var layer := LayerCapture(Prefix, Kind, inv, inv.output.dims[3]);
    var post := if Supported(inv) then PostDump(inv) else [];
    var d := DebugSection(inv);
    EvalSections(s, inv);
    assert PreDump(s, inv) == layer + [d];
    var secs := Eval(s, inv).sections;
    assert secs == layer + [d] + post;
    var k := if inv.bias.Some? then 5 else 4;
    assert |layer| == k;
    assert layer[k - 1].QuantArrays?;
    assert secs[k - 1] == layer[k - 1];
    assert secs[k] == d;
    var w := WindowValues(inv);
    assert forall y, x :: 0 <= y < 3 && 0 <= x < 3 ==>
      w[3 * y + x] == Int8At(inv.input, Offset4(inv.input.dims, 0, y, x, 0));
  }

  // ---------------------------------------------------------------------------
  // Runs of calls
  // ---------------------------------------------------------------------------

  /** Every call of the run can read what it reads, in the state it meets. */
  predicate RunCallable(s: State, invs: seq<Invocation>)
    decreases |invs|
  {
    |invs| == 0 || (Callable(s, invs[0]) && RunCallable(Eval(s, invs[0]).state, invs[1..]))
  }

  function Run(s: State, invs: seq<Invocation>): (State, seq<Section>)
    requires RunCallable(s, invs)
    decreases |invs|
  {
    if |invs| == 0 then (s, [])
    else
      var step := Eval(s, invs[0]);
      var rest := Run(step.state, invs[1..]);
      (rest.0, step.sections + rest.1)
  }

  /** Reference count, independent of the state: calls whose types evaluate. */
  function CountSupported(invs: seq<Invocation>): nat
  {
    if |invs| == 0 then 0 else (if Supported(invs[0]) then 1 else 0) + CountSupported(invs[1..])
  }

  /**
   * The counter advances once per call that evaluates, whatever its shape,
   * and never on an unsupported type.
   */
  lemma {:induction false} RunCounter(s: State, invs: seq<Invocation>)
    requires RunCallable(s, invs)
    ensures Run(s, invs).0.counter == s.counter + CountSupported(invs)
    decreases |invs|
  {
    if |invs| > 0 {
      RunCounter(Eval(s, invs[0]).state, invs[1..]);
    }
  }

  /** The latch is never cleared. */
  lemma {:induction false} RunLatchStays(s: State, invs: seq<Invocation>)
    requires RunCallable(s, invs) && s.printedDebug
    ensures Run(s, invs).0.printedDebug
    decreases |invs|
  {
    if |invs| > 0 {
      RunLatchStays(Eval(s, invs[0]).state, invs[1..]);
    }
  }

  /**
   * The debug window is printed at most once per process, and never once
   * the latch is set.
   */
  lemma {:induction false} RunDebugOnce(s: State, invs: seq<Invocation>)
    requires RunCallable(s, invs)
    ensures CountDebugWindows(Run(s, invs).1) <= if s.printedDebug then 0 else 1
    decreases |invs|
  {
    if |invs| > 0 {
      var step := Eval(s, invs[0]);
      CountDebugWindowsAppend(step.sections, Run(step.state, invs[1..]).1);
      RunDebugOnce(step.state, invs[1..]);
    }
  }

  /** Past counter 4 nothing is printed again and the counter stays past it. */
  lemma {:induction false} RunSilentAfterCapture(s: State, invs: seq<Invocation>)
    requires RunCallable(s, invs) && s.counter > 4
    ensures Run(s, invs).1 == [] && Run(s, invs).0.counter > 4
    decreases |invs|
  {
    if |invs| > 0 {
      RunSilentAfterCapture(Eval(s, invs[0]).state, invs[1..]);
    }
  }

  /** The depthwise output of block 5 is printed at most once per process. */
  lemma {:induction false} RunOutputOnce(s: State, invs: seq<Invocation>)
    requires RunCallable(s, invs)
    ensures CountArray(Run(s, invs).1, OutputName) <= if s.counter <= 4 then 1 else 0
    decreases |invs|
  {
    if |invs| > 0 {
      var step := Eval(s, invs[0]);
      CountArrayAppend(step.sections, Run(step.state, invs[1..]).1, OutputName);
      if CountArray(step.sections, OutputName) > 0 {
        RunSilentAfterCapture(step.state, invs[1..]);
      } else {
        RunOutputOnce(step.state, invs[1..]);
      }
    }
  }

  /** While the counter cannot reach 4, no call prints anything. */
  lemma {:induction false} RunSilentBeforeCapture(s: State, invs: seq<Invocation>)
    requires RunCallable(s, invs) && s.counter + CountSupported(invs) < 4
    ensures Run(s, invs).1 == []
    decreases |invs|
  {
    if |invs| > 0 {
      RunSilentBeforeCapture(Eval(s, invs[0]).state, invs[1..]);
    }
  }

  /**
   * From process start: the counter equals the number of calls that
   * evaluated, a process with fewer than four of them prints nothing, and
   * the debug window and the depthwise output of block 5 each appear at
   * most once.
   */
  lemma FromStart(invs: seq<Invocation>)
    requires RunCallable(Initial, invs)
    ensures Run(Initial, invs).0.counter == CountSupported(invs)
    ensures CountSupported(invs) < 4 ==> Run(Initial, invs).1 == []
    ensures CountDebugWindows(Run(Initial, invs).1) <= 1
    ensures CountArray(Run(Initial, invs).1, OutputName) <= 1
  {
    RunCounter(Initial, invs);
    if CountSupported(invs) < 4 {
      RunSilentBeforeCapture(Initial, invs);
    }
    RunDebugOnce(Initial, invs);
    RunOutputOnce(Initial, invs);
  }

  /**
   * A call with an unsupported type at counter 4 still prints its operands,
   * sets the latch, leaves the counter at 4 and prints no output, so the
   * next call dumps the operands again but without the debug window.
   */
  lemma FailedCallRepeatsDump(s: State, bad: Invocation, next: Invocation)
    requires Callable(s, bad) && s.counter == 4 && !Supported(bad)
    requires |next.output.dims| >= 4
    ensures Eval(s, bad).status.Error? && |Eval(s, bad).sections| > 0
    ensures Eval(s, bad).state == State(4, true)
    ensures CountArray(Eval(s, bad).sections, OutputName) == 0
    ensures Callable(Eval(s, bad).state, next)
    ensures |Eval(Eval(s, bad).state, next).sections| > 0
    ensures CountDebugWindows(Eval(Eval(s, bad).state, next).sections) == 0
  {
  }

  /** An int16 input, which the conv kernel accepts, is refused here. */
  lemma Int16Refused(filter: ElemType)
    ensures Dispatch(Int16, filter) == Failure(InputTypeUnsupported(Int16))
  {
  }
}

=== FILE: format.dfy ===
/**
 * The integer-to-text conversions of C's printf family as the capture code
 * uses them: signed decimal (`%d`, `%ld`, `PRId32`) and lower-case
 * hexadecimal of a value converted to a 32-bit unsigned integer, zero-padded
 * to a minimum width (`0x%02x`, `0x%08x`, `0x%08lx`). Each conversion comes
 * with a parser and a round-trip lemma, so that a printed listing can be
 * shown to determine the values it was printed from.
 */
module Format {
  import opened Wrappers

  const TwoTo31: int := 0x8000_0000
  const TwoTo32: int := 0x1_0000_0000

  function Pow(b: nat, k: nat): nat
  {
    if k == 0 then 1 else b * Pow(b, k - 1)
  }

  predicate InInt32(v: int)
  {
    -TwoTo31 <= v < TwoTo31
  }

  predicate InInt8(v: int)
  {
    -128 <= v < 128
  }

  /** C's conversion of a signed value to `uint32_t` (reduction modulo 2^32). */
  function ToUnsigned32(v: int): (u: nat)
    ensures u < TwoTo32
    ensures 0 <= v < TwoTo32 ==> u == v
    ensures -TwoTo32 <= v < 0 ==> u == v + TwoTo32
  {
    v % TwoTo32
  }

  /** Reading a 32-bit pattern back as a two's-complement `int32_t`. */
  function FromUnsigned32(u: nat): (v: int)
    requires u < TwoTo32
    ensures InInt32(v)
    ensures ToUnsigned32(v) == u
  {
    if u >= TwoTo31 then u - TwoTo32 else u
  }

  // ---------------------------------------------------------------------------
  // Digits
  // ---------------------------------------------------------------------------

  predicate IsDigitChar(c: char)
  {
    '0' <= c <= '9' || 'a' <= c <= 'f'
  }

  /** The lower-case digit for `d`, as `%x` and `%d` print it. */
  function DigitChar(d: nat): (c: char)
    requires d < 16
    ensures IsDigitChar(c)
  {
    if d < 10 then ('0' as int + d) as char else ('a' as int + d - 10) as char
  }

  function DigitValue(c: char): (d: Option<nat>)
    ensures d.Some? <==> IsDigitChar(c)
    ensures d.Some? ==> d.value < 16 && DigitChar(d.value) == c
  {
    if '0' <= c <= '9' then Some(c as int - '0' as int)
    else if 'a' <= c <= 'f' then Some(c as int - 'a' as int + 10)
    else None
  }

  lemma DigitRoundTrip(d: nat)
    requires d < 16
    ensures DigitValue(DigitChar(d)) == Some(d)
  {
  }

  /** Every character of `s` is a digit of the given base. */
  predicate AllDigits(s: string, base: nat)
  {
    forall i :: 0 <= i < |s| ==> DigitValue(s[i]).Some? && DigitValue(s[i]).value < base
  }

  /** The positional value of a digit string, most significant digit first. */
  function ValueOf(s: string, base: nat): nat
    requires AllDigits(s, base)
  {
    if |s| == 0 then 0
    else ValueOf(s[..|s| - 1], base) * base + DigitValue(s[|s| - 1]).value
  }

  /** The minimal numeral of `n` in `base` ("0" for zero, no leading zeros). */
  function Numeral(n: nat, base: nat): (s: string)
    requires 2 <= base <= 16
    ensures |s| > 0 && AllDigits(s, base)
    decreases n
  {
    if n < base then [DigitChar(n)]
    else
      DivideStep(n, base);
      var prefix := Numeral(n / base, base);
      AppendDigit(prefix, n % base, base);
      prefix + [DigitChar(n % base)]
  }

  /** Euclidean division of `n` by `base`, in the form the digit proofs use. */
  lemma DivideStep(n: nat, base: nat)
    requires 2 <= base <= 16 && n >= base
    ensures n / base < n && n % base < base
    ensures n == (n / base) * base + n % base
  {
  }

  lemma AppendDigit(s: string, d: nat, base: nat)
    requires 2 <= base <= 16 && d < base && AllDigits(s, base)
    ensures AllDigits(s + [DigitChar(d)], base)
  {
    var t := s + [DigitChar(d)];
    forall i | 0 <= i < |t| ensures DigitValue(t[i]).Some? && DigitValue(t[i]).value < base {
      if i < |s| { assert t[i] == s[i]; } else { DigitRoundTrip(d); }
    }
  }

  function ParseNumeral(s: string, base: nat): (r: Option<nat>)
  {
    if |s| > 0 && AllDigits(s, base) then Some(ValueOf(s, base)) else None
  }

  lemma {:induction false} NumeralValue(n: nat, base: nat)
    requires 2 <= base <= 16
    ensures ValueOf(Numeral(n, base), base) == n
    decreases n
  {
    var s := Numeral(n, base);
    if n < base {
      assert s[..0] == [];
      DigitRoundTrip(n);
    } else {
      DivideStep(n, base);
      NumeralValue(n / base, base);
      assert s[..|s| - 1] == Numeral(n / base, base);
      DigitRoundTrip(n % base);
    }
  }

  /** Numerals printed without padding are read back exactly. */
  lemma NumeralRoundTrip(n: nat, base: nat)
    requires 2 <= base <= 16
    ensures ParseNumeral(Numeral(n, base), base) == Some(n)
  {
    NumeralValue(n, base);
  }

  /** A number below base^k needs at most k digits. */
  lemma {:induction false} NumeralAtMost(n: nat, base: nat, k: nat)
    requires 2 <= base <= 16 && k >= 1
    requires n < Pow(base, k)
    ensures |Numeral(n, base)| <= k
    decreases k
  {
    if n >= base {
      assert k >= 2;
      DivideStep(n, base);
      QuotientBelow(n, base, Pow(base, k - 1));
      NumeralAtMost(n / base, base, k - 1);
    }
  }

  /** A number at least base^(k-1) needs at least k digits. */
  lemma {:induction false} NumeralAtLeast(n: nat, base: nat, k: nat)
    requires 2 <= base <= 16 && k >= 1
    requires Pow(base, k - 1) <= n
    ensures |Numeral(n, base)| >= k
    decreases k
  {
    if k > 1 {
      PowPositive(base, k - 2);
      assert Pow(base, k - 1) == base * Pow(base, k - 2);
      MulAtLeast(base, Pow(base, k - 2));
      DivideStep(n, base);
      QuotientAtLeast(n, base, Pow(base, k - 2));
      NumeralAtLeast(n / base, base, k - 1);
    }
  }

  lemma QuotientBelow(n: nat, base: nat, p: nat)
    requires base >= 2 && n < base * p
    ensures n / base < p
  {
  }

  lemma QuotientAtLeast(n: nat, base: nat, p: nat)
    requires base >= 2 && base * p <= n
    ensures p <= n / base
  {
    var q := n / base;
    assert n == base * q + n % base;
    assert base * p < base * (q + 1);
    CancelLess(base, p, q + 1);
  }

  lemma CancelLess(b: nat, x: nat, y: nat)
    requires b > 0 && b * x < b * y
    ensures x < y
  {
  }

  lemma MulAtLeast(base: nat, p: nat)
    requires base >= 2 && p >= 1
    ensures base * p >= base
  {
  }

  lemma {:induction false} PowPositive(b: nat, k: nat)
    requires b >= 1
    ensures Pow(b, k) >= 1
  {
    if k > 0 {
      PowPositive(b, k - 1);
      assert b * Pow(b, k - 1) >= Pow(b, k - 1);
    }
  }

  // ---------------------------------------------------------------------------
  // Zero padding
  // ---------------------------------------------------------------------------

  function Zeros(k: nat): (s: string)
    ensures |s| == k && forall i :: 0 <= i < k ==> s[i] == '0'
  {
    seq(k, _ => '0')
  }

  /** The `0` flag with a minimum field width: left-pad with zeros to `width`. */
  function PadZeros(s: string, width: nat): (r: string)
    ensures |r| == if |s| >= width then |s| else width
  {
    if |s| >= width then s else Zeros(width - |s|) + s
  }

  lemma {:induction false} LeadingZerosValue(k: nat, s: string, base: nat)
    requires 2 <= base <= 16 && AllDigits(s, base)
    ensures AllDigits(Zeros(k) + s, base)
    ensures ValueOf(Zeros(k) + s, base) == ValueOf(s, base)
    decreases |s|
  {
    var t := Zeros(k) + s;
    assert AllDigits(t, base) by {
      forall i | 0 <= i < |t|
        ensures DigitValue(t[i]).Some? && DigitValue(t[i]).value < base
      {
        if i >= k { assert t[i] == s[i - k]; }
      }
    }
    if |s| == 0 {
      assert t == Zeros(k);
      ZerosValue(k, base);
    } else {
      var s' := s[..|s| - 1];
      assert AllDigits(s', base) by {
        forall i | 0 <= i < |s'| ensures DigitValue(s'[i]).Some? && DigitValue(s'[i]).value < base {
          assert s'[i] == s[i];
        }
      }
      LeadingZerosValue(k, s', base);
      assert t[..|t| - 1] == Zeros(k) + s';
    }
  }

  lemma {:induction false} ZerosValue(k: nat, base: nat)
    requires 2 <= base <= 16
    ensures AllDigits(Zeros(k), base) && ValueOf(Zeros(k), base) == 0
  {
    if k > 0 {
      ZerosValue(k - 1, base);
      assert Zeros(k)[..k - 1] == Zeros(k - 1);
    }
  }

  // ---------------------------------------------------------------------------
  // Hexadecimal: "0x%0<width>x"
  // ---------------------------------------------------------------------------

  /**
   * `0x%0<width>x` applied to `v`: the value is converted to `unsigned int`
   * (so a negative `int` prints as its 32-bit two's-complement pattern), then
   * written in lower-case hex with at least `width` digits.
   */
  function Hex(v: int, width: nat): (s: string)
    ensures |s| >= 2 && s[..2] == "0x"
    ensures |s| >= 2 + width
  {
    "0x" + PadZeros(Numeral(ToUnsigned32(v), 16), width)
  }

  /** Reads a `0x...` field back as a signed 32-bit value. */
  function ParseHex(s: string): (r: Option<int>)
  {
    if |s| >= 2 && s[..2] == "0x" then
      match ParseNumeral(s[2..], 16)
      case Some(u) => if u < TwoTo32 then Some(FromUnsigned32(u)) else None
      case None => None
    else None
  }

  /** Every `int32_t` printed with `0x%0<w>x` is recovered from the text. */
  lemma HexRoundTrip(v: int, width: nat)
    requires InInt32(v)
    ensures ParseHex(Hex(v, width)) == Some(v)
  {
    var u := ToUnsigned32(v);
    var digits := Numeral(u, 16);
    var s := Hex(v, width);
    assert s[2..] == PadZeros(digits, width);
    NumeralValue(u, 16);
    if |digits| < width {
      LeadingZerosValue(width - |digits|, digits, 16);
    }
  }

  /** A 32-bit pattern never needs more than eight hex digits. */
  lemma HexDigitsAtMost8(v: int)
    ensures |Numeral(ToUnsigned32(v), 16)| <= 8
  {
    assert Pow(16, 8) == TwoTo32;
    NumeralAtMost(ToUnsigned32(v), 16, 8);
  }

  /** `0x%08x` always prints exactly ten characters. */
  lemma Hex8Width(v: int)
    ensures |Hex(v, 8)| == 10
  {
    HexDigitsAtMost8(v);
  }

  /**
   * `0x%02x` of an `int8_t` promoted to `int`: non-negative values print as
   * exactly two hex digits; negative values print as the eight-digit 32-bit
   * two's-complement pattern (so -1 prints as 0xffffffff).
   */
  lemma Int8HexWidth(v: int)
    requires InInt8(v)
    ensures 0 <= v ==> |Hex(v, 2)| == 4
    ensures v < 0 ==> |Hex(v, 2)| == 10
    ensures v < 0 ==> Hex(v, 2)[2..8] == "ffffff"
  {
    var u := ToUnsigned32(v);
    if 0 <= v {
      assert Pow(16, 2) == 256;
      NumeralAtMost(u, 16, 2);
    } else {
      assert Pow(16, 7) == 0x1000_0000;
      assert Pow(16, 8) == TwoTo32;
      NumeralAtLeast(u, 16, 8);
      NumeralAtMost(u, 16, 8);
      HexNegativeInt8Prefix(v);
    }
  }

  lemma HexNegativeInt8Prefix(v: int)
    requires -128 <= v < 0
    ensures |Numeral(ToUnsigned32(v), 16)| == 8
    ensures Numeral(ToUnsigned32(v), 16)[..6] == "ffffff"
  {
    var u := ToUnsigned32(v);
    assert u == 0xffff_ff00 + (v + 256);
    var lo := v + 256;
    assert u / 16 == 0x0fff_fff0 + lo / 16;
    assert u / 256 == 0xff_ffff;
    assert Numeral(0xff_ffff, 16) == "ffffff";
    var n1 := Numeral(u / 16, 16);
    assert (u / 16) / 16 == 0xff_ffff;
    assert n1 == Numeral(0xff_ffff, 16) + [DigitChar((u / 16) % 16)];
    assert Numeral(u, 16) == n1 + [DigitChar(u % 16)];
  }

  // ---------------------------------------------------------------------------
  // Decimal: "%d", "%ld", PRId32
  // ---------------------------------------------------------------------------

  /** Signed decimal: a minus sign for negative values, then the minimal digits. */
  function Decimal(v: int): (s: string)
    ensures |s| > 0
  {
    if v < 0 then "-" + Numeral(-v, 10) else Numeral(v, 10)
  }

  function ParseDecimal(s: string): (r: Option<int>)
  {
    if |s| > 0 && s[0] == '-' then
      match ParseNumeral(s[1..], 10)
      case Some(n) => var m: int := n; Some(-m)
      case None => None
    else
      match ParseNumeral(s, 10)
      case Some(n) => Some(n)
      case None => None
  }

  /** Every integer printed with `%d` is recovered from the text. */
  lemma DecimalRoundTrip(v: int)
    ensures ParseDecimal(Decimal(v)) == Some(v)
  {
    var s := Decimal(v);
    if v < 0 {
      var d := Numeral(-v, 10);
      assert s == "-" + d;
      assert s[0] == '-' && s[1..] == d;
      NumeralRoundTrip(-v, 10);
      assert ParseNumeral(s[1..], 10) == Some(-v);
    } else {
      var d := Numeral(v, 10);
      assert s == d;
      NumeralRoundTrip(v, 10);
      assert DigitValue(d[0]).Some?;
      assert s[0] != '-';
    }
  }

  /** The characters a printed number is made of. */
  predicate IsNumberChar(c: char)
  {
    IsDigitChar(c) || c == 'x' || c == '-'
  }

  lemma HexChars(v: int, width: nat)
    ensures forall i :: 0 <= i < |Hex(v, width)| ==> IsNumberChar(Hex(v, width)[i])
  {
    var digits := Numeral(ToUnsigned32(v), 16);
    var padded := PadZeros(digits, width);
    assert forall i :: 0 <= i < |padded| ==> IsDigitChar(padded[i]) by {
      if |digits| < width {
        forall i | 0 <= i < |padded| ensures IsDigitChar(padded[i]) {
          if i >= width - |digits| {
            assert padded[i] == digits[i - (width - |digits|)];
          }
        }
      }
    }
    var s := Hex(v, width);
    forall i | 0 <= i < |s| ensures IsNumberChar(s[i]) {
      if i >= 2 { assert s[i] == padded[i - 2]; }
    }
  }

  lemma DecimalChars(v: int)
    ensures forall i :: 0 <= i < |Decimal(v)| ==> IsNumberChar(Decimal(v)[i])
  {
    var s := Decimal(v);
    if v < 0 {
      var d := Numeral(-v, 10);
      forall i | 0 <= i < |s| ensures IsNumberChar(s[i]) {
        if i >= 1 { assert s[i] == d[i - 1]; }
      }
    }
  }
}

=== FILE: listing.dfy ===
/**
 * The two line-wrapping disciplines the capture code uses for array bodies,
 * each element printed as its text followed by ", ":
 *
 *  - break-before: a line break and indent is printed before element i
 *    whenever i is a multiple of the line length (print_tensor_as_h);
 *  - break-after: a line break and indent is printed after element i when
 *    i + 1 is a multiple of the line length and another element follows
 *    (PrintQuantParams).
 *
 * Both are related to an independent reference built from fixed-size chunks,
 * and both are shown to be read back, element for element, by a small
 * comma-separated parser.
 */
module Listing {
  import opened Wrappers

  /** The newline and four-space indent that opens each wrapped line. */
  const LineBreak: string := "\n    "

  /** One printed element: its text followed by ", ". */
  function Cell(item: string): string
  {
    item + ", "
  }

  /** Elements printed one after another on a single line. */
  function Cells(items: seq<string>): string
    decreases |items|
  {
    if |items| == 0 then "" else Cell(items[0]) + Cells(items[1..])
  }

  /**
   * Loop `for i in [start, start + |items|)`: print the break when
   * `i % perLine == 0`, then the element.
   */
  function BreakBefore(items: seq<string>, perLine: nat, start: nat): string
    requires perLine > 0
    decreases |items|
  {
    if |items| == 0 then ""
    else
      (if start % perLine == 0 then LineBreak else "")
      + Cell(items[0])
      + BreakBefore(items[1..], perLine, start + 1)
  }

  /**
   * Loop `for i in [start, start + |items|)`: print the element, then the
   * break when `(i + 1) % perLine == 0` and `i + 1` is not the end.
   */
  function BreakAfter(items: seq<string>, perLine: nat, start: nat): string
    requires perLine > 0
    decreases |items|
  {
    if |items| == 0 then ""
    else
      Cell(items[0])
      + (if (start + 1) % perLine == 0 && |items| > 1 then LineBreak else "")
      + BreakAfter(items[1..], perLine, start + 1)
  }

  // ---------------------------------------------------------------------------
  // Reference layout: fixed-size chunks
  // ---------------------------------------------------------------------------

  /** `s` cut into consecutive pieces of `k` elements; the last may be shorter. */
  function Chunks<T>(s: seq<T>, k: nat): (r: seq<seq<T>>)
    requires k > 0
    ensures forall i :: 0 <= i < |r| ==> 0 < |r[i]| <= k
    ensures forall i :: 0 <= i < |r| - 1 ==> |r[i]| == k
    decreases |s|
  {
    if |s| == 0 then []
    else if |s| <= k then [s]
    else [s[..k]] + Chunks(s[k..], k)
  }

  /** Adding the divisor adds one to the quotient and leaves the remainder. */
  lemma AddDivisor(m: nat, k: nat)
    requires k > 0
    ensures (m + k) / k == m / k + 1
    ensures (m + k) % k == m % k
  {
    var q, r := m / k, m % k;
    assert m == k * q + r && 0 <= r < k;
    assert m + k == k * (q + 1) + r;
    DivUnique(m + k, k, q + 1, r);
  }

  lemma DivUnique(n: nat, k: nat, q: nat, r: nat)
    requires k > 0 && r < k && n == k * q + r
    ensures n / k == q && n % k == r
  {
    var q', r' := n / k, n % k;
    assert n == k * q' + r' && 0 <= r' < k;
    var d := q - q';
    assert k * d == k * q - k * q';
    MulBounds(k, d);
  }

  lemma MulBounds(k: int, d: int)
    requires k > 0
    ensures d >= 1 ==> k * d >= k
    ensures d <= -1 ==> k * d <= -k
  {
  }

  /** There are ceil(n / k) chunks. */
  lemma {:induction false} ChunksCount<T>(s: seq<T>, k: nat)
    requires k > 0
    ensures |Chunks(s, k)| == (|s| + k - 1) / k
    decreases |s|
  {
    if |s| == 0 {
      DivUnique(k - 1, k, 0, k - 1);
    } else if |s| <= k {
      DivUnique(|s| + k - 1, k, 1, |s| - 1);
    } else {
      ChunksCount(s[k..], k);
      AddDivisor(|s| - k + k - 1, k);
    }
  }

  function Flatten<T>(ss: seq<seq<T>>): seq<T>
  {
    if |ss| == 0 then [] else ss[0] + Flatten(ss[1..])
  }

  lemma {:induction false} FlattenAppend<T>(a: seq<seq<T>>, b: seq<seq<T>>)
    ensures Flatten(a + b) == Flatten(a) + Flatten(b)
    decreases |a|
  {
    if |a| == 0 {
      assert a + b == b;
    } else {
      assert (a + b)[1..] == a[1..] + b;
      FlattenAppend(a[1..], b);
      Associate(a[0], Flatten(a[1..]), Flatten(b));
    }
  }

  lemma FlattenSingle<T>(a: seq<T>)
    ensures Flatten([a]) == a
  {
    assert [a][1..] == [];
  }

  lemma FlattenCons<T>(a: seq<T>, rest: seq<seq<T>>)
    ensures Flatten([a] + rest) == a + Flatten(rest)
  {
    assert ([a] + rest)[1..] == rest;
  }

  /** Three pieces, a run of pieces, then a last one, joined. */
  lemma FlattenParts<T>(a: seq<T>, b: seq<T>, c: seq<T>, m: seq<seq<T>>, d: seq<T>)
    ensures Flatten([a, b, c] + m + [d]) == a + b + c + Flatten(m) + d
  {
    var abc := [a, b, c];
    FlattenAppend(abc + m, [d]);
    FlattenSingle(d);
    FlattenAppend(abc, m);
    assert abc == [a] + ([b] + [c]);
    FlattenSingle(c);
    FlattenCons(b, [c]);
    FlattenCons(a, [b] + [c]);
    Associate(a, b, c);
    assert Flatten(abc) == a + b + c;
  }

  /** Cutting into chunks loses nothing and reorders nothing. */
  lemma {:induction false} ChunksFlatten<T>(s: seq<T>, k: nat)
    requires k > 0
    ensures Flatten(Chunks(s, k)) == s
    decreases |s|
  {
    if |s| > k {
      ChunksFlatten(s[k..], k);
      assert Chunks(s, k)[1..] == Chunks(s[k..], k);
      assert s[..k] + s[k..] == s;
    } else if |s| > 0 {
      assert Chunks(s, k)[1..] == [];
    }
  }

  /** Reference for break-before: every chunk is a line opened by a break. */
  function OpenedLines(lines: seq<seq<string>>): string
  {
    if |lines| == 0 then "" else LineBreak + Cells(lines[0]) + OpenedLines(lines[1..])
  }

  /** Reference for break-after: chunks joined by breaks, none after the last. */
  function JoinedLines(lines: seq<seq<string>>): string
  {
    if |lines| == 0 then ""
    else if |lines| == 1 then Cells(lines[0])
    else Cells(lines[0]) + LineBreak + JoinedLines(lines[1..])
  }

  // ---------------------------------------------------------------------------
  // Break-before equals the reference
  // ---------------------------------------------------------------------------

  lemma {:induction false} BreakBeforeSplit(a: seq<string>, b: seq<string>, k: nat, start: nat)
    requires k > 0
    ensures BreakBefore(a + b, k, start) == BreakBefore(a, k, start) + BreakBefore(b, k, start + |a|)
    decreases |a|
  {
    if |a| > 0 {
      assert (a + b)[1..] == a[1..] + b;
      BreakBeforeSplit(a[1..], b, k, start + 1);
    } else {
      assert a + b == b;
    }
  }

  lemma {:induction false} BreakBeforeShift(items: seq<string>, k: nat, start: nat)
    requires k > 0
    ensures BreakBefore(items, k, start + k) == BreakBefore(items, k, start)
    decreases |items|
  {
    if |items| > 0 {
      AddDivisor(start, k);
      BreakBeforeShift(items[1..], k, start + 1);
    }
  }

  /** Inside a line (no index a multiple of `k`) no break is printed. */
  lemma {:induction false} BreakBeforeWithinLine(items: seq<string>, k: nat, start: nat)
    requires 0 < start && start + |items| <= k
    ensures BreakBefore(items, k, start) == Cells(items)
    decreases |items|
  {
    if |items| > 0 {
      assert start % k == start;
      BreakBeforeWithinLine(items[1..], k, start + 1);
    }
  }

  /** The index-based loop of print_tensor_as_h lays elements out chunk by chunk. */
  lemma {:induction false} BreakBeforeIsOpenedLines(items: seq<string>, k: nat)
    requires k > 0
    ensures BreakBefore(items, k, 0) == OpenedLines(Chunks(items, k))
    decreases |items|
  {
    if |items| == 0 {
    } else {
      var n := if |items| <= k then |items| else k;
      var line := items[..n];
      assert BreakBefore(line, k, 0) == LineBreak + Cells(line) by {
        BreakBeforeWithinLine(line[1..], k, 1);
        assert Cells(line) == Cell(line[0]) + Cells(line[1..]);
      }
      if |items| <= k {
        assert line == items;
        assert Chunks(items, k) == [items];
        assert OpenedLines([items]) == LineBreak + Cells(items) + OpenedLines([]);
      } else {
        var rest := items[k..];
        assert items == line + rest;
        BreakBeforeSplit(line, rest, k, 0);
        BreakBeforeShift(rest, k, 0);
        BreakBeforeIsOpenedLines(rest, k);
        assert Chunks(items, k)[1..] == Chunks(rest, k);
      }
    }
  }

  // ---------------------------------------------------------------------------
  // Break-after equals the reference
  // ---------------------------------------------------------------------------

  lemma BreakAfterCons(x: string, rest: seq<string>, k: nat, start: nat)
    requires k > 0
    ensures BreakAfter([x] + rest, k, start)
         == Cell(x) + (if |rest| > 0 && (start + 1) % k == 0 then LineBreak else "") + BreakAfter(rest, k, start + 1)
  {
    assert ([x] + rest)[0] == x && ([x] + rest)[1..] == rest;
  }

  lemma {:induction false} BreakAfterSplit(a: seq<string>, b: seq<string>, k: nat, start: nat)
    requires k > 0
    ensures BreakAfter(a + b, k, start)
         == BreakAfter(a, k, start)
          + (if |a| > 0 && |b| > 0 && (start + |a|) % k == 0 then LineBreak else "")
          + BreakAfter(b, k, start + |a|)
    decreases |a|
  {
    if |a| == 0 {
      assert a + b == b;
    } else {
      assert a == [a[0]] + a[1..];
      BreakAfterSplit(a[1..], b, k, start + 1);
      BreakAfterSplitStep(a[0], a[1..], b, k, start);
    }
  }

  lemma Associate<T>(a: seq<T>, b: seq<T>, c: seq<T>)
    ensures a + (b + c) == a + b + c
  {
  }

  lemma HeadTail<T>(s: seq<T>)
    requires |s| > 0
    ensures [s[0]] + s[1..] == s
  {
  }

  /** One element in front of both sides of the split equation. */
  lemma BreakAfterSplitStep(x: string, a: seq<string>, b: seq<string>, k: nat, start: nat)
    requires k > 0
    ensures (BreakAfter(a + b, k, start + 1)
             == BreakAfter(a, k, start + 1)
              + (if |a| > 0 && |b| > 0 && (start + 1 + |a|) % k == 0 then LineBreak else "")
              + BreakAfter(b, k, start + 1 + |a|))
        ==> (BreakAfter([x] + a + b, k, start)
             == BreakAfter([x] + a, k, start)
              + (if |b| > 0 && (start + 1 + |a|) % k == 0 then LineBreak else "")
              + BreakAfter(b, k, start + 1 + |a|))
  {
    var p, r, t := Cell(x), BreakAfter(a, k, start + 1), BreakAfter(b, k, start + 1 + |a|);
    var mid := if |b| > 0 && (start + 1 + |a|) % k == 0 then LineBreak else "";
    var inner := if |a| > 0 then r + mid + t else t;
    if BreakAfter(a + b, k, start + 1) == inner {
      assert [x] + a + b == [x] + (a + b);
      BreakAfterCons(x, a, k, start);
      BreakAfterCons(x, a + b, k, start);
      if |a| == 0 {
        assert a + b == b;
        assert BreakAfter([x] + a, k, start) == p;
        assert BreakAfter([x] + a + b, k, start) == p + mid + t;
      } else {
        var first := if (start + 1) % k == 0 then LineBreak else "";
        assert BreakAfter([x] + a, k, start) == p + first + r;
        assert BreakAfter([x] + a + b, k, start) == p + first + (r + mid + t);
        Associate(p + first, r + mid, t);
        Associate(p + first, r, mid);
      }
    }
  }

  lemma {:induction false} BreakAfterShift(items: seq<string>, k: nat, start: nat)
    requires k > 0
    ensures BreakAfter(items, k, start + k) == BreakAfter(items, k, start)
    decreases |items|
  {
    if |items| > 0 {
      AddDivisor(start + 1, k);
      BreakAfterShift(items[1..], k, start + 1);
    }
  }

  /** A line that ends at or before a multiple of `k` carries no inner break. */
  lemma {:induction false} BreakAfterWithinLine(items: seq<string>, k: nat, start: nat)
    requires k > 0 && start + |items| <= k
    ensures BreakAfter(items, k, start) == Cells(items)
    decreases |items|
  {
    if |items| > 0 {
      if |items| > 1 {
        assert (start + 1) % k == start + 1;
      }
      BreakAfterWithinLine(items[1..], k, start + 1);
    }
  }

  /** The index-based loop of PrintQuantParams joins chunk lines with breaks. */
  lemma {:induction false} BreakAfterIsJoinedLines(items: seq<string>, k: nat)
    requires k > 0
    ensures BreakAfter(items, k, 0) == JoinedLines(Chunks(items, k))
    decreases |items|
  {
    if |items| == 0 {
    } else if |items| <= k {
      BreakAfterWithinLine(items, k, 0);
      assert Chunks(items, k) == [items];
    } else {
      var line := items[..k];
      var rest := items[k..];
      assert items == line + rest;
      var cs := Chunks(items, k);
      assert cs == [line] + Chunks(rest, k);
      assert cs[0] == line && cs[1..] == Chunks(rest, k);
      assert |cs| >= 2;
      calc {
        BreakAfter(items, k, 0);
        { BreakAfterSplit(line, rest, k, 0); assert k % k == 0; }
        BreakAfter(line, k, 0) + LineBreak + BreakAfter(rest, k, k);
        { BreakAfterWithinLine(line, k, 0); BreakAfterShift(rest, k, 0); }
        Cells(line) + LineBreak + BreakAfter(rest, k, 0);
        { BreakAfterIsJoinedLines(rest, k); }
        Cells(cs[0]) + LineBreak + JoinedLines(cs[1..]);
      }
    }
  }

  // ---------------------------------------------------------------------------
  // Counting lines
  // ---------------------------------------------------------------------------

  function Occurrences(s: string, c: char): nat
  {
    if |s| == 0 then 0 else (if s[0] == c then 1 else 0) + Occurrences(s[1..], c)
  }

  lemma {:induction false} OccurrencesAppend(a: string, b: string, c: char)
    ensures Occurrences(a + b, c) == Occurrences(a, c) + Occurrences(b, c)
    decreases |a|
  {
    if |a| == 0 {
      assert a + b == b;
    } else {
      assert (a + b)[1..] == a[1..] + b;
      OccurrencesAppend(a[1..], b, c);
    }
  }

  predicate NoNewline(items: seq<string>)
  {
    forall i, j :: 0 <= i < |items| && 0 <= j < |items[i]| ==> items[i][j] != '\n'
  }

  lemma {:induction false} CellsNoNewline(items: seq<string>)
    requires NoNewline(items)
    ensures Occurrences(Cells(items), '\n') == 0
    decreases |items|
  {
    if |items| > 0 {
      assert NoNewline(items[1..]) by {
        forall i, j | 0 <= i < |items[1..]| && 0 <= j < |items[1..][i]|
          ensures items[1..][i][j] != '\n'
        {
          assert items[1..][i] == items[i + 1];
        }
      }
      CellsNoNewline(items[1..]);
      ItemNoNewline(items[0]);
      OccurrencesAppend(items[0], ", ", '\n');
      OccurrencesAppend(Cell(items[0]), Cells(items[1..]), '\n');
    }
  }

  lemma {:induction false} ItemNoNewline(s: string)
    requires forall j :: 0 <= j < |s| ==> s[j] != '\n'
    ensures Occurrences(s, '\n') == 0
    decreases |s|
  {
    if |s| > 0 {
      ItemNoNewline(s[1..]);
    }
  }

  lemma {:induction false} OpenedLinesNewlines(lines: seq<seq<string>>)
    requires forall i :: 0 <= i < |lines| ==> NoNewline(lines[i])
    ensures Occurrences(OpenedLines(lines), '\n') == |lines|
    decreases |lines|
  {
    if |lines| > 0 {
      OpenedLinesNewlines(lines[1..]);
      CellsNoNewline(lines[0]);
      OccurrencesAppend(LineBreak, Cells(lines[0]), '\n');
      OccurrencesAppend(LineBreak + Cells(lines[0]), OpenedLines(lines[1..]), '\n');
    }
  }

  lemma {:induction false} JoinedLinesNewlines(lines: seq<seq<string>>)
    requires forall i :: 0 <= i < |lines| ==> NoNewline(lines[i])
    ensures Occurrences(JoinedLines(lines), '\n') == if |lines| == 0 then 0 else |lines| - 1
    decreases |lines|
  {
    if |lines| == 1 {
      CellsNoNewline(lines[0]);
    } else if |lines| > 1 {
      JoinedLinesNewlines(lines[1..]);
      CellsNoNewline(lines[0]);
      OccurrencesAppend(Cells(lines[0]), LineBreak, '\n');
      OccurrencesAppend(Cells(lines[0]) + LineBreak, JoinedLines(lines[1..]), '\n');
    }
  }

  lemma {:induction false} ChunksNoNewline(items: seq<string>, k: nat)
    requires k > 0 && NoNewline(items)
    ensures forall i :: 0 <= i < |Chunks(items, k)| ==> NoNewline(Chunks(items, k)[i])
    decreases |items|
  {
    if |items| > k {
      assert NoNewline(items[..k]) by {
        forall i, j | 0 <= i < k && 0 <= j < |items[..k][i]| ensures items[..k][i][j] != '\n' {
          assert items[..k][i] == items[i];
        }
      }
      assert NoNewline(items[k..]) by {
        forall i, j | 0 <= i < |items| - k && 0 <= j < |items[k..][i]| ensures items[k..][i][j] != '\n' {
          assert items[k..][i] == items[i + k];
        }
      }
      ChunksNoNewline(items[k..], k);
      var cs := Chunks(items, k);
      forall i | 0 <= i < |cs| ensures NoNewline(cs[i]) {
        if i > 0 { assert cs[i] == Chunks(items[k..], k)[i - 1]; }
      }
    }
  }

  /**
   * Break-before over n elements without newlines of their own prints exactly
   * ceil(n / k) newlines: one per line, and none for an empty listing.
   */
  lemma BreakBeforeLines(items: seq<string>, k: nat)
    requires k > 0 && NoNewline(items)
    ensures Occurrences(BreakBefore(items, k, 0), '\n') == (|items| + k - 1) / k
  {
    BreakBeforeIsOpenedLines(items, k);
    ChunksCount(items, k);
    ChunksNoNewline(items, k);
    OpenedLinesNewlines(Chunks(items, k));
  }

  /**
   * Break-after over n > 0 elements prints exactly ceil(n / k) - 1 newlines:
   * one between consecutive lines and none after the last element.
   */
  lemma BreakAfterLines(items: seq<string>, k: nat)
    requires k > 0 && NoNewline(items)
    ensures Occurrences(BreakAfter(items, k, 0), '\n')
         == if |items| == 0 then 0 else (|items| + k - 1) / k - 1
  {
    BreakAfterIsJoinedLines(items, k);
    ChunksCount(items, k);
    ChunksNoNewline(items, k);
    JoinedLinesNewlines(Chunks(items, k));
  }

  // ---------------------------------------------------------------------------
  // Reading a listing back
  // ---------------------------------------------------------------------------

  predicate IsSpace(c: char)
  {
    c == ' ' || c == '\n'
  }

  predicate AllSpace(s: string)
  {
    forall i :: 0 <= i < |s| ==> IsSpace(s[i])
  }

  /** Element text as printed: non-empty, no separator, no white space. */
  predicate IsToken(s: string)
  {
    |s| > 0 && forall i :: 0 <= i < |s| ==> s[i] != ',' && !IsSpace(s[i])
  }

  function SkipSpace(s: string): (r: string)
    ensures |r| <= |s|
    ensures |r| > 0 ==> !IsSpace(r[0])
    decreases |s|
  {
    if |s| > 0 && IsSpace(s[0]) then SkipSpace(s[1..]) else s
  }

  function IndexOf(s: string, c: char): (r: Option<nat>)
    ensures r.Some? ==> r.value < |s| && s[r.value] == c
    decreases |s|
  {
    if |s| == 0 then None
    else if s[0] == c then Some(0)
    else match IndexOf(s[1..], c)
      case Some(j) => Some(j + 1)
      case None => None
  }

  /** `s` does not contain the character `c`. */
  predicate Lacks(s: string, c: char)
  {
    forall i :: 0 <= i < |s| ==> s[i] != c
  }

  lemma LacksAppend(a: string, b: string, c: char)
    requires Lacks(a, c) && Lacks(b, c)
    ensures Lacks(a + b, c)
  {
    forall i | 0 <= i < |a + b| ensures (a + b)[i] != c {
      if i >= |a| {
        assert (a + b)[i] == b[i - |a|];
      }
    }
  }

  /** The first `c` of `x + [c] + rest` is the one after `x`. */
  lemma {:induction false} IndexOfFirst(x: string, c: char, rest: string)
    requires Lacks(x, c)
    ensures IndexOf(x + ([c] + rest), c) == Some(|x|)
    decreases |x|
  {
    if |x| > 0 {
      assert (x + ([c] + rest))[1..] == x[1..] + ([c] + rest);
      IndexOfFirst(x[1..], c, rest);
    } else {
      assert x + ([c] + rest) == [c] + rest;
    }
  }

  /** Line `k` of `s`, counting from 0: the text between its k-th and (k+1)-th newline. */
  function LineAt(s: string, k: nat): string
    decreases k
  {
    match IndexOf(s, '\n')
    case None => if k == 0 then s else ""
    case Some(j) => if k == 0 then s[..j] else LineAt(s[j + 1..], k - 1)
  }

  /** A newline-free `x` followed by a newline is line 0; the lines after it are those of `rest`. */
  lemma LineAtCons(x: string, rest: string, k: nat)
    requires Lacks(x, '\n')
    ensures LineAt(x + ("\n" + rest), 0) == x
    ensures LineAt(x + ("\n" + rest), k + 1) == LineAt(rest, k)
  {
    var s := x + ("\n" + rest);
    assert "\n" + rest == ['\n'] + rest;
    IndexOfFirst(x, '\n', rest);
    assert s[..|x|] == x;
    assert s[|x| + 1..] == rest;
  }

  /**
   * Reads a listing of elements each terminated by ',', with white space
   * allowed around them; `decode` reads one element's text.
   */
  function ParseCells(s: string, decode: string -> Option<int>): Option<seq<int>>
    decreases |s|
  {
    var t := SkipSpace(s);
    if |t| == 0 then Some([])
    else match IndexOf(t, ',')
      case None => None
      case Some(j) =>
        match decode(t[..j])
        case None => None
        case Some(v) =>
          match ParseCells(t[j + 1..], decode)
          case None => None
          case Some(vs) => Some([v] + vs)
  }

  lemma {:induction false} SkipSpaceAppend(ws: string, t: string)
    requires AllSpace(ws)
    ensures SkipSpace(ws + t) == SkipSpace(t)
    decreases |ws|
  {
    if |ws| > 0 {
      assert (ws + t)[1..] == ws[1..] + t;
      SkipSpaceAppend(ws[1..], t);
    } else {
      assert ws + t == t;
    }
  }

  lemma ParseCellsSkip(ws: string, t: string, decode: string -> Option<int>)
    requires AllSpace(ws)
    ensures ParseCells(ws + t, decode) == ParseCells(t, decode)
  {
    SkipSpaceAppend(ws, t);
  }

  lemma {:induction false} IndexOfToken(tok: string, rest: string)
    requires forall i :: 0 <= i < |tok| ==> tok[i] != ','
    ensures IndexOf(tok + "," + rest, ',') == Some(|tok|)
    decreases |tok|
  {
    if |tok| > 0 {
      assert (tok + "," + rest)[1..] == tok[1..] + "," + rest;
      IndexOfToken(tok[1..], rest);
    }
  }

  /** A token and its separator are consumed as one element. */
  lemma ParseCellsComma(tok: string, v: int, rest: string, decode: string -> Option<int>)
    requires IsToken(tok) && decode(tok) == Some(v)
    ensures ParseCells(tok + "," + rest, decode)
         == match ParseCells(rest, decode)
            case None => None
            case Some(vs) => Some([v] + vs)
  {
    var s := tok + "," + rest;
    assert SkipSpace(s) == s;
    IndexOfToken(tok, rest);
    assert s[..|tok|] == tok;
    assert s[|tok| + 1..] == rest;
  }

  /** A token, its separator and one space are consumed as one element. */
  lemma ParseCellsToken(tok: string, v: int, rest: string, decode: string -> Option<int>)
    requires IsToken(tok) && decode(tok) == Some(v)
    ensures ParseCells(tok + ", " + rest, decode)
         == match ParseCells(rest, decode)
            case None => None
            case Some(vs) => Some([v] + vs)
  {
    assert tok + ", " + rest == tok + "," + (" " + rest);
    ParseCellsComma(tok, v, " " + rest, decode);
    ParseCellsSkip(" ", rest, decode);
  }

  /** What a decoder must do for the listing of `items` to read as `values`. */
  predicate Decodes(items: seq<string>, values: seq<int>, decode: string -> Option<int>)
  {
    |items| == |values|
    && forall i :: 0 <= i < |items| ==> IsToken(items[i]) && decode(items[i]) == Some(values[i])
  }

  lemma DecodesTail(items: seq<string>, values: seq<int>, decode: string -> Option<int>)
    requires Decodes(items, values, decode) && |items| > 0
    ensures Decodes(items[1..], values[1..], decode)
  {
    forall i | 0 <= i < |items| - 1
      ensures IsToken(items[1..][i]) && decode(items[1..][i]) == Some(values[1..][i])
    {
      assert items[1..][i] == items[i + 1];
    }
  }

  /** A break-before listing reads back as exactly its elements, in order. */
  lemma {:induction false} BreakBeforeReadsBack(items: seq<string>, values: seq<int>, k: nat, start: nat, decode: string -> Option<int>)
    requires k > 0 && Decodes(items, values, decode)
    ensures ParseCells(BreakBefore(items, k, start), decode) == Some(values)
    decreases |items|
  {
    if |items| > 0 {
      var brk := if start % k == 0 then LineBreak else "";
      var rest := BreakBefore(items[1..], k, start + 1);
      assert BreakBefore(items, k, start) == brk + Cell(items[0]) + rest;
      Associate(brk, Cell(items[0]), rest);
      ParseCellsSkip(brk, Cell(items[0]) + rest, decode);
      ParseCellsToken(items[0], values[0], rest, decode);
      DecodesTail(items, values, decode);
      BreakBeforeReadsBack(items[1..], values[1..], k, start + 1, decode);
      HeadTail(values);
    }
  }

  /** A cell followed by white space is consumed as one element. */
  lemma ParseCellThenSpace(tok: string, v: int, ws: string, rest: string, decode: string -> Option<int>)
    requires IsToken(tok) && decode(tok) == Some(v) && AllSpace(ws)
    ensures ParseCells(Cell(tok) + (ws + rest), decode)
         == match ParseCells(rest, decode)
            case None => None
            case Some(vs) => Some([v] + vs)
  {
    ParseCellsToken(tok, v, ws + rest, decode);
    ParseCellsSkip(ws, rest, decode);
  }

  /** The first element of a break-after listing, then white space, then the rest. */
  lemma BreakAfterHead(items: seq<string>, k: nat, start: nat) returns (brk: string)
    requires k > 0 && |items| > 0
    ensures AllSpace(brk)
    ensures BreakAfter(items, k, start) == Cell(items[0]) + (brk + BreakAfter(items[1..], k, start + 1))
  {
    brk := if (start + 1) % k == 0 && |items| > 1 then LineBreak else "";
  }

  /** A break-after listing reads back as exactly its elements, in order. */
  lemma {:induction false} BreakAfterReadsBack(items: seq<string>, values: seq<int>, k: nat, start: nat, decode: string -> Option<int>)
    requires k > 0 && Decodes(items, values, decode)
    ensures ParseCells(BreakAfter(items, k, start), decode) == Some(values)
    decreases |items|
  {
    if |items| > 0 {
      var brk := BreakAfterHead(items, k, start);
      var tail := BreakAfter(items[1..], k, start + 1);
      ParseCellThenSpace(items[0], values[0], brk, tail, decode);
      DecodesTail(items, values, decode);
      BreakAfterReadsBack(items[1..], values[1..], k, start + 1, decode);
      HeadTail(values);
    }
  }
}

=== FILE: quant_dump.dfy ===
/**
 * `PrintQuantParams`, identical in both kernels: the layer's input and
 * output zero points in decimal, then the per-channel multipliers (`0x%08lx`,
 * eight per line) and shifts (`%ld`, sixteen per line) for the first
 * `num_channels` output channels, with a break after every full line but
 * never after the last element.
 */
module QuantDump {
  import opened Wrappers
  import opened Format
  import opened Listing
  import opened DataCapture

  /** The requantization fields of OpDataConv that the capture prints. */
  datatype QuantParams = QuantParams(
    inputZeroPoint: int,
    outputZeroPoint: int,
    multipliers: seq<int>,
    shifts: seq<int>)

  /** The channel arrays can be read for `channels` entries. */
  predicate Covers(q: QuantParams, channels: nat)
  {
    channels <= |q.multipliers| && channels <= |q.shifts|
  }

  function MultiplierItems(q: QuantParams, channels: nat): seq<string>
    requires Covers(q, channels)
  {
    seq(channels, i requires 0 <= i < channels => Hex(q.multipliers[i], 8))
  }

  function ShiftItems(q: QuantParams, channels: nat): seq<string>
    requires Covers(q, channels)
  {
    seq(channels, i requires 0 <= i < channels => Decimal(q.shifts[i]))
  }

  function MultiplierBody(q: QuantParams, channels: nat): string
    requires Covers(q, channels)
  {
    BreakAfter(MultiplierItems(q, channels), 8, 0)
  }

  function ShiftBody(q: QuantParams, channels: nat): string
    requires Covers(q, channels)
  {
    BreakAfter(ShiftItems(q, channels), 16, 0)
  }

  /** `PrintQuantParams(layer, data, channels)`, one line per piece. */
  function PrintQuantParams(layer: string, q: QuantParams, channels: nat): string
    requires Covers(q, channels)
  {
    "\n" + (QuantHeader(layer)
    + ("\n" + (OffsetLine(layer + "_input_offset", q.inputZeroPoint)
    + ("\n" + (OffsetLine(layer + "_output_offset", q.outputZeroPoint)
    + ("\n" + ChannelArrays(layer, q, channels)))))))
  }

  function QuantHeader(layer: string): string
  {
    "// --- " + (layer + ": REQUANTIZATION PARAMS ---")
  }

  /** `const int32_t <name> = <v>;` with `v` printed by `%ld`. */
  function OffsetLine(name: string, v: int): string
  {
    "const int32_t " + (name + (" = " + (Decimal(v) + ";")))
  }

  /** The multiplier and shift arrays, after the blank line that follows the offsets. */
  function ChannelArrays(layer: string, q: QuantParams, channels: nat): string
    requires Covers(q, channels)
  {
    "\n// Per-channel output multipliers:\n"
    + "const int32_t " + layer + "_output_multiplier[] = {\n    " + MultiplierBody(q, channels) + "\n};\n\n"
    + "// Per-channel output shifts:\n"
    + "const int32_t " + layer + "_output_shift[] = {\n    " + ShiftBody(q, channels) + "\n};\n"
  }

  // ---------------------------------------------------------------------------
  // Reading the offset lines back
  // ---------------------------------------------------------------------------

  predicate IsIdentChar(c: char)
  {
    'a' <= c <= 'z' || 'A' <= c <= 'Z' || '0' <= c <= '9' || c == '_'
  }

  /** A C identifier's characters, as the kernels' layer names are. */
  predicate IsIdentifier(s: string)
  {
    forall i :: 0 <= i < |s| ==> IsIdentChar(s[i])
  }

  /** Reads a line `const int32_t <name> = <decimal>;` as its name and value. */
  function ParseAssignment(line: string): Option<(string, int)>
  {
    var prefix := "const int32_t ";
    if |line| < |prefix| || line[..|prefix|] != prefix then None
    else
      var rest := line[|prefix|..];
      match IndexOf(rest, ' ')
      case None => None
      case Some(j) =>
        var after := rest[j..];
        if |after| < 4 || after[..3] != " = " || after[|after| - 1] != ';' then None
        else
          match ParseDecimal(after[3..|after| - 1])
          case None => None
          case Some(v) => Some((rest[..j], v))
  }

  /** An offset line reads back as its name and value. */
  lemma OffsetLineReadsBack(name: string, v: int)
    requires Lacks(name, ' ')
    ensures ParseAssignment(OffsetLine(name, v)) == Some((name, v))
  {
    var d := Decimal(v);
    var line := OffsetLine(name, v);
    var rest := name + (" = " + (d + ";"));
    assert line[..14] == "const int32_t " && line[14..] == rest;
    assert " = " + (d + ";") == [' '] + ("= " + (d + ";"));
    IndexOfFirst(name, ' ', "= " + (d + ";"));
    var after := " = " + (d + ";");
    assert rest[|name|..] == after && rest[..|name|] == name;
    assert after[..3] == " = " && after[|after| - 1] == ';';
    assert after[3..] == d + ";";
    assert (d + ";")[..|d|] == d;
    assert after[3..|after| - 1] == (d + ";")[..|d|];
    DecimalRoundTrip(v);
  }

  lemma IdentifierLacks(s: string)
    requires IsIdentifier(s)
    ensures Lacks(s, ' ') && Lacks(s, '\n')
  {
  }

  lemma DecimalLacks(v: int)
    ensures Lacks(Decimal(v), ' ') && Lacks(Decimal(v), '\n')
  {
    DecimalChars(v);
  }

  lemma OffsetLineLacksNewline(name: string, v: int)
    requires Lacks(name, '\n')
    ensures Lacks(OffsetLine(name, v), '\n')
  {
    DecimalLacks(v);
    LacksAppend(Decimal(v), ";", '\n');
    LacksAppend(" = ", Decimal(v) + ";", '\n');
    LacksAppend(name, " = " + (Decimal(v) + ";"), '\n');
    LacksAppend("const int32_t ", name + (" = " + (Decimal(v) + ";")), '\n');
  }

  lemma QuantHeaderLacksNewline(layer: string)
    requires IsIdentifier(layer)
    ensures Lacks(QuantHeader(layer), '\n')
  {
    IdentifierLacks(layer);
    LacksAppend(layer, ": REQUANTIZATION PARAMS ---", '\n');
    LacksAppend("// --- ", layer + ": REQUANTIZATION PARAMS ---", '\n');
  }

  lemma SuffixedIdentifier(layer: string, suffix: string)
    requires IsIdentifier(layer) && IsIdentifier(suffix)
    ensures IsIdentifier(layer + suffix)
  {
    forall i | 0 <= i < |layer + suffix| ensures IsIdentChar((layer + suffix)[i]) {
      if i >= |layer| {
        assert (layer + suffix)[i] == suffix[i - |layer|];
      }
    }
  }

  /**
   * Lines 2 and 3 of the dump declare `<layer>_input_offset` and
   * `<layer>_output_offset`, and their values read back as the input and
   * output zero points; line 1 is the section heading.
   */
  lemma OffsetsReadBack(layer: string, q: QuantParams, channels: nat)
    requires Covers(q, channels) && IsIdentifier(layer)
    ensures LineAt(PrintQuantParams(layer, q, channels), 1) == QuantHeader(layer)
    ensures ParseAssignment(LineAt(PrintQuantParams(layer, q, channels), 2))
         == Some((layer + "_input_offset", q.inputZeroPoint))
    ensures ParseAssignment(LineAt(PrintQuantParams(layer, q, channels), 3))
         == Some((layer + "_output_offset", q.outputZeroPoint))
  {
    var inName, outName := layer + "_input_offset", layer + "_output_offset";
    SuffixedIdentifier(layer, "_input_offset");
    SuffixedIdentifier(layer, "_output_offset");
    IdentifierLacks(inName);
    IdentifierLacks(outName);
    QuantHeaderLacksNewline(layer);
    OffsetLineLacksNewline(inName, q.inputZeroPoint);
    OffsetLineLacksNewline(outName, q.outputZeroPoint);
    ThreeLines(QuantHeader(layer), OffsetLine(inName, q.inputZeroPoint),
      OffsetLine(outName, q.outputZeroPoint), ChannelArrays(layer, q, channels));
    OffsetLineReadsBack(inName, q.inputZeroPoint);
    OffsetLineReadsBack(outName, q.outputZeroPoint);
  }

  /** After a leading newline, three newline-free lines are lines 1, 2 and 3. */
  lemma ThreeLines(l1: string, l2: string, l3: string, tail: string)
    requires Lacks(l1, '\n') && Lacks(l2, '\n') && Lacks(l3, '\n')
    ensures var s := "\n" + (l1 + ("\n" + (l2 + ("\n" + (l3 + ("\n" + tail))))));
      LineAt(s, 1) == l1 && LineAt(s, 2) == l2 && LineAt(s, 3) == l3
  {
    var r2 := l3 + ("\n" + tail);
    var r1 := l2 + ("\n" + r2);
    var r0 := l1 + ("\n" + r1);
    LineAtCons(l3, tail, 0);
    LineAtCons(l2, r2, 0);
    LineAtCons(l2, r2, 1);
    LineAtCons(l1, r1, 0);
    LineAtCons(l1, r1, 1);
    LineAtCons(l1, r1, 2);
    LeadingNewline(r0, 0);
    LeadingNewline(r0, 1);
    LeadingNewline(r0, 2);
  }

  lemma LeadingNewline(r: string, k: nat)
    ensures LineAt("\n" + r, k + 1) == LineAt(r, k)
  {
    assert "" + ("\n" + r) == "\n" + r;
    assert Lacks("", '\n');
    LineAtCons("", r, k);
  }

  predicate Int32Channels(vs: seq<int>, channels: nat)
  {
    channels <= |vs| && forall i :: 0 <= i < channels ==> InInt32(vs[i])
  }

  /**
   * The multiplier array lists exactly `channels` values, in channel order:
   * it reads back as the first `channels` multipliers.
   */
  lemma MultipliersReadBack(q: QuantParams, channels: nat)
    requires Covers(q, channels) && Int32Channels(q.multipliers, channels)
    ensures ParseCells(MultiplierBody(q, channels), ParseHex) == Some(q.multipliers[..channels])
  {
    var vs := q.multipliers[..channels];
    HexDecodes(vs, 8);
    assert MultiplierItems(q, channels) == seq(|vs|, i requires 0 <= i < |vs| => Hex(vs[i], 8));
    BreakAfterReadsBack(MultiplierItems(q, channels), vs, 8, 0, ParseHex);
  }

  /**
   * The shift array lists exactly `channels` values, in channel order: it
   * reads back as the first `channels` shifts.
   */
  lemma ShiftsReadBack(q: QuantParams, channels: nat)
    requires Covers(q, channels)
    ensures ParseCells(ShiftBody(q, channels), ParseDecimal) == Some(q.shifts[..channels])
  {
    var vs := q.shifts[..channels];
    DecimalDecodes(vs);
    assert ShiftItems(q, channels) == seq(|vs|, i requires 0 <= i < |vs| => Decimal(vs[i]));
    BreakAfterReadsBack(ShiftItems(q, channels), vs, 16, 0, ParseDecimal);
  }

  /**
   * Multipliers break after every eighth element and never after the last:
   * the lines are the chunks of eight, joined by breaks, so `channels`
   * multipliers take ceil(channels / 8) lines.
   */
  lemma MultiplierLines(q: QuantParams, channels: nat)
    requires Covers(q, channels)
    ensures MultiplierBody(q, channels) == JoinedLines(Chunks(MultiplierItems(q, channels), 8))
    ensures Occurrences(MultiplierBody(q, channels), '\n')
         == if channels == 0 then 0 else (channels + 7) / 8 - 1
  {
    var vs := q.multipliers[..channels];
    forall i | 0 <= i < channels
      ensures forall j :: 0 <= j < |MultiplierItems(q, channels)[i]| ==> MultiplierItems(q, channels)[i][j] != '\n'
    {
      HexChars(q.multipliers[i], 8);
    }
    BreakAfterIsJoinedLines(MultiplierItems(q, channels), 8);
    BreakAfterLines(MultiplierItems(q, channels), 8);
  }

  /**
   * Shifts break after every sixteenth element and never after the last:
   * `channels` shifts take ceil(channels / 16) lines.
   */
  lemma ShiftLines(q: QuantParams, channels: nat)
    requires Covers(q, channels)
    ensures ShiftBody(q, channels) == JoinedLines(Chunks(ShiftItems(q, channels), 16))
    ensures Occurrences(ShiftBody(q, channels), '\n')
         == if channels == 0 then 0 else (channels + 15) / 16 - 1
  {
    forall i | 0 <= i < channels
      ensures forall j :: 0 <= j < |ShiftItems(q, channels)[i]| ==> ShiftItems(q, channels)[i][j] != '\n'
    {
      DecimalChars(q.shifts[i]);
    }
    BreakAfterIsJoinedLines(ShiftItems(q, channels), 16);
    BreakAfterLines(ShiftItems(q, channels), 16);
  }

  /** Each multiplier is printed as `0x` and exactly eight hex digits. */
  lemma MultiplierWidths(q: QuantParams, channels: nat)
    requires Covers(q, channels)
    ensures forall i :: 0 <= i < channels ==> |MultiplierItems(q, channels)[i]| == 10
  {
    forall i | 0 <= i < channels ensures |MultiplierItems(q, channels)[i]| == 10 {
      Hex8Width(q.multipliers[i]);
    }
  }
}

=== FILE: tensors.dfy ===
/**
 * The evaluation-time tensor view the kernels receive: an element type, a
 * shape, and the raw bytes of the buffer. The capture code reinterprets the
 * buffer as `int8_t` or `int32_t` whatever the declared type, so the model
 * keeps the bytes and offers both views.
 */
module Tensors {
  import opened Format

  /** Element types, in the order of TfLiteType. */
  datatype ElemType =
    | NoType | Float32 | Int32 | UInt8 | Int64 | StringType | Bool | Int16
    | Complex64 | Int8 | Float16 | Float64 | Complex128 | UInt64 | Resource
    | Variant | UInt32 | UInt16 | Int4 | BFloat16

  type Byte = x: int | 0 <= x < 256

  datatype Tensor = Tensor(kind: ElemType, dims: seq<nat>, bytes: seq<Byte>)

  /** Number of elements: the product of the extents (1 for a scalar shape). */
  function FlatSize(dims: seq<nat>): nat
  {
    if |dims| == 0 then 1 else dims[0] * FlatSize(dims[1..])
  }

  /** The buffer holds at least one byte per element (the `int8_t` view). */
  predicate Readable8(t: Tensor)
  {
    FlatSize(t.dims) <= |t.bytes|
  }

  /** The buffer holds at least four bytes per element (the `int32_t` view). */
  predicate Readable32(t: Tensor)
  {
    4 * FlatSize(t.dims) <= |t.bytes|
  }

  /** Element `i` of the buffer read as `int8_t`. */
  function Int8At(t: Tensor, i: nat): (v: int)
    requires i < |t.bytes|
    ensures InInt8(v)
    ensures ToUnsigned32(v) % 256 == t.bytes[i]
  {
    var b: int := t.bytes[i];
    if b < 128 then b else b - 256
  }

  /** Element `i` of the buffer read as a little-endian `int32_t`. */
  function Int32At(t: Tensor, i: nat): (v: int)
    requires 4 * i + 4 <= |t.bytes|
    ensures InInt32(v)
    ensures ToUnsigned32(v)
         == t.bytes[4 * i] as int + 0x100 * (t.bytes[4 * i + 1] as int)
          + 0x1_0000 * (t.bytes[4 * i + 2] as int) + 0x100_0000 * (t.bytes[4 * i + 3] as int)
    ensures ToUnsigned32(v) % 0x100 == t.bytes[4 * i]
    ensures ToUnsigned32(v) / 0x100_0000 == t.bytes[4 * i + 3]
    ensures v < 0 <==> t.bytes[4 * i + 3] >= 0x80
  {
    var b0: int, b1: int, b2: int, b3: int :=
      t.bytes[4 * i], t.bytes[4 * i + 1], t.bytes[4 * i + 2], t.bytes[4 * i + 3];
    FromUnsigned32(b0 + 0x100 * b1 + 0x1_0000 * b2 + 0x100_0000 * b3)
  }

  /** The first `n` elements of the `int8_t` view, in buffer order. */
  function Int8Values(t: Tensor, n: nat): (vs: seq<int>)
    requires n <= |t.bytes|
    ensures |vs| == n && forall i :: 0 <= i < n ==> vs[i] == Int8At(t, i)
  {
    seq(n, i requires 0 <= i < n => Int8At(t, i))
  }

  /** The first `n` elements of the `int32_t` view, in buffer order. */
  function Int32Values(t: Tensor, n: nat): (vs: seq<int>)
    requires 4 * n <= |t.bytes|
    ensures |vs| == n && forall i :: 0 <= i < n ==> vs[i] == Int32At(t, i)
  {
    seq(n, i requires 0 <= i < n => Int32At(t, i))
  }

  /**
   * RuntimeShape's row-major offset of element (i0, i1, i2, i3) of a 4-D
   * shape; every in-range index lands inside the flat buffer.
   */
  function Offset4(dims: seq<nat>, i0: nat, i1: nat, i2: nat, i3: nat): (r: nat)
    requires |dims| == 4
    requires i0 < dims[0] && i1 < dims[1] && i2 < dims[2] && i3 < dims[3]
    ensures r < FlatSize(dims)
  {
    var a := i0 * dims[1] + i1;
    var b := a * dims[2] + i2;
    MixedRadix(i0, dims[0], i1, dims[1]);
    MixedRadix(a, dims[0] * dims[1], i2, dims[2]);
    MixedRadix(b, dims[0] * dims[1] * dims[2], i3, dims[3]);
    FlatSize4(dims);
    b * dims[3] + i3
  }

  lemma MixedRadix(a: nat, bigA: nat, b: nat, bigB: nat)
    requires a < bigA && b < bigB
    ensures a * bigB + b < bigA * bigB
  {
    assert a * bigB + b < a * bigB + bigB == (a + 1) * bigB;
    assert (a + 1) * bigB <= bigA * bigB;
  }

  lemma FlatSize4(dims: seq<nat>)
    requires |dims| == 4
    ensures FlatSize(dims) == dims[0] * dims[1] * dims[2] * dims[3]
  {
    assert FlatSize(dims[3..]) == dims[3] * FlatSize(dims[4..]) == dims[3];
    assert FlatSize(dims[2..]) == dims[2] * FlatSize(dims[3..]) by { assert dims[2..][1..] == dims[3..]; }
    assert FlatSize(dims[1..]) == dims[1] * FlatSize(dims[2..]) by { assert dims[1..][1..] == dims[2..]; }
    assert FlatSize(dims) == dims[0] * FlatSize(dims[1..]);
  }
}

=== FILE: wrappers.dfy ===
/** Optional values and results with an error, used for lookups and parsers. */
module Wrappers {

  datatype Option<+T> = None | Some(value: T)

  datatype Result<+R, +E> = Success(value: R) | Failure(error: E)
}
